=== FILE: README.md ===
# Political compass quiz: scoring and classification model

A Dafny model of the scoring and classification engine of a political-compass
quiz. The model covers these parts:

- **Responses.** A respondent answers up to 30 statements on a 0–100 slider. The answers form a sparse map from question index to value. On submission the map is completed, with every unanswered question set to 50.
- **Axes.** Two axis scores are computed as unweighted means over fixed question subsets: 9 economic questions and 12 social questions. Each score is rescaled to a position in [-100, 100].
- **Classification.** A position is classified into a quadrant and one of 18 ideology labels by an ordered decision tree.
- **Storage.** The result record is stored, then read back by the results page. That page also has a neutral-result banner and a zoom control.
- **Standalone page.** A second, self-contained quiz page adds its own pieces:
  - a jittered "multi-dimensional" projection that ranks ten reference archetypes;
  - Likert labels for the slider values;
  - per-axis headings and descriptions, and a centrist analysis;
  - a submit gate at half completion, and a retake action.
- **Slider.** The custom slider turns a mouse or touch position into a clamped, rounded value, and colours its track with a gradient.

Modules, one per part of the program:

| module | file | covers |
|---|---|---|
| `Options` | options.dfy | optional values |
| `Responses` | responses.dfy | the response map, answering, completion, the `responses[q] \|\| 50` read, answered/neutral counts |
| `Axis` | axis.dfy | axis scores and positions |
| `Classifier` | classifier.dfy | `getQuadrant`, `getIdeology` |
| `Persisted` | persisted.dfy | the stored result record and the storage slot |
| `Results` | results.dfy | `loadResults`, headline, direction words, zoom |
| `TestFlow` | test_flow.dfy | the component quiz page: submission record, footer cursor, tooltip counts |
| `Slider` | slider.dfy | `updateValue`, `getGradientStyle` |
| `Labels` | labels.dfy | `getResponseLabel`, axis headings and descriptions, centrist analysis |
| `Projection` | projection.dfy | `calculateMdsPosition` and the archetype ranking |
| `QuizPage` | quiz_page.dfy | the standalone page: submit gate, results switch, retake, displayed slider value |

Modelling choices:

- **Values.** JavaScript numbers are `real`. Slider emissions are `int`.
- **The `|| 50` read.** `responses[q] || 50` is `Responses.ScoredValue`. A missing key and a stored 0 both read as 50, because 0 is falsy.
- **Labels.** Quadrant and ideology labels are datatypes. Their `Name()` gives the exact strings.
- **Storage.** Client storage is a `Slot`: missing, unparseable, or a parsed record.
- **Randomness.** The two `Math.random()` draws are parameters in [0, 1).
- **Ranking.** Archetypes are ranked by squared distance. The square root is strictly increasing on non-negative numbers, so both give the same order and the same ties. The ranking is a stable insertion sort. It is proved to produce the unique order "nearer first, then smaller catalog id".
- **Behaviour worth noting:**
  - The ideology tree is modelled exactly as written, so some axis points get labels that disagree with their quadrant. For example, (0, -30) is "Right Authoritarian" in the "Libertarian Right" quadrant (`Classifier.AxisPointsDisagree`).
  - The component page has no submit gate and completes the response set. Only the standalone page gates, at half completion.
  - The standalone page never writes a record, so only the component page's submission produces a `StoredRecord`.

## Model

| member | source | states |
|---|---|---|
| Responses.Record | components/political-compass/political-compass-test.tsx:130-135 | answering adds key `q` with the given value; every other key keeps its value |
| Responses.RecordAllKeepsInvariant | components/political-compass/political-compass-test.tsx:130-135 | any series of slider answers keeps every value in [0, 100] and every key a question index |
| Responses.RecordAllLastAnswerWins | components/political-compass/political-compass-test.tsx:130-135 | after a series of answers, a question holds the value of its last answer |
| Responses.RecordAllUntouched | components/political-compass/political-compass-test.tsx:130-135 | a question never answered in the series keeps its presence and value |
| Responses.Complete | components/political-compass/political-compass-test.tsx:139-146 | completion adds every index 0..29; answered entries keep their value, unanswered ones become 50 |
| Responses.CompleteIdempotent | components/political-compass/political-compass-test.tsx:139-146 | completing a completed set changes nothing |
| Responses.CompleteKeepsRange | components/political-compass/political-compass-test.tsx:139-146 | completion keeps all values in [0, 100] |
| Responses.CompleteAllNeutral | components/political-compass/political-compass-test.tsx:139-146 | the completed set is all 50 exactly when the answers given were all 50 |
| Responses.ScoredValue | components/political-compass/political-compass-test.tsx:154-158 | the read value is the stored value unless it is missing or 0, in which case it is 50 |
| Responses.ScoredValueAfterComplete | components/political-compass/political-compass-test.tsx:139-158 | completion does not change any read value |
| Responses.NeutralCountIsUnanswered | components/political-compass/political-compass-test.tsx:196-197 | 30 minus the answered count is the number of question indices without an answer |
| Axis.Position | components/political-compass/political-compass-test.tsx:159 | the rescaling is inverted by half the position plus 50; position 0 exactly at score 50 |
| Axis.PositionStrictlyIncreasing | components/political-compass/political-compass-test.tsx:168 | the rescaling preserves and reflects strict order |
| Axis.ScoredSumBounds | components/political-compass/political-compass-test.tsx:154-158 | with values in [0, 100] the summed reads lie in [0, 100·n] |
| Axis.ScoreInRange | components/political-compass/political-compass-test.tsx:162-168 | with values in [0, 100] a score lies in [0, 100] and its position in [-100, 100] |
| Axis.ComputeAxesInRange | components/political-compass/political-compass-test.tsx:151-168 | both scores in [0, 100], both positions in [-100, 100] |
| Axis.NoAnswersIsNeutral | political-compass-test.tsx:163-170 | with no answers both scores are 50 and both positions 0 |
| Axis.AllNeutralScoresNeutral | components/political-compass/political-compass-test.tsx:151-168 | answers that are all 50 score the origin |
| Axis.ZeroReadsAsNeutral | political-compass-test.tsx:164 | an answer of 0 sums like an answer of 50 and like no answer |
| Axis.ScoredSumIgnoresOthers | political-compass-test.tsx:168-169 | answering a question outside the list leaves the sum unchanged |
| Axis.AxesIndependent | political-compass-test.tsx:163-170 | answering an economic question leaves the social score unchanged, and vice versa |
| Axis.ScoredSumAfterComplete | components/political-compass/political-compass-test.tsx:139-158 | completion leaves every sum over question indices unchanged |
| Axis.ComputeAxesAfterComplete | components/political-compass/political-compass-test.tsx:139-168 | scoring the completed set equals scoring the raw answers |
| Classifier.QuadrantOf | components/political-compass/political-compass-results.tsx:98-103 | each quadrant exactly on its sign pair, zero counting as non-negative |
| Classifier.QuadrantDependsOnSignsOnly | components/political-compass/political-compass-results.tsx:98-103 | points with the same sign pattern get the same quadrant |
| Classifier.IdeologyOf | components/political-compass/political-compass-results.tsx:105-142 | the decision tree's label lies in the closed-form region of that label |
| Classifier.RegionsDisjoint | components/political-compass/political-compass-results.tsx:105-142 | no point lies in the regions of two labels |
| Classifier.IdeologyIffRegion | components/political-compass/political-compass-results.tsx:105-142 | the tree yields a label exactly on that label's region |
| Classifier.TrueNeutralOnlyAtOrigin | components/political-compass/political-compass-results.tsx:110 | "True Neutral" exactly at (0, 0) |
| Classifier.ExtremeTier | components/political-compass/political-compass-results.tsx:113-118 | beyond 70 on both axes the label is picked by the sign pair; "Fascism" exactly when both exceed 70 |
| Classifier.StrongTierFallThrough | components/political-compass/political-compass-results.tsx:121-141 | strong points that match no compound rule fall through to the leaning tier |
| Classifier.CentristIff | components/political-compass/political-compass-results.tsx:133-135 | "Centrist" exactly for non-origin points within 20 on both axes |
| Classifier.RightAuthoritarianFallback | components/political-compass/political-compass-results.tsx:138-141 | "Right Authoritarian" exactly on the leaning region with no negative-only sign pattern |
| Classifier.IdeologyAgreesWithQuadrant | components/political-compass/political-compass-results.tsx:98-142 | off the axes, a label tied to a quadrant agrees with `getQuadrant` |
| Classifier.AxisPointsDisagree | components/political-compass/political-compass-results.tsx:99-141 | (0, -30) and (-100, 0) are "Right Authoritarian" while their quadrants say otherwise |
| Classifier.BoundaryCases | components/political-compass/political-compass-results.tsx:98-142 | origin, corners and (100, 0) get the labels the tree gives them |
| Persisted.Save | components/political-compass/political-compass-test.tsx:171-180 | writing replaces the slot with the new record |
| Results.LoadResults | components/political-compass/political-compass-results.tsx:50-77 | missing or unparseable gives the default flagged neutral; a parsed record is shown as stored, flagged neutral iff every stored response is 50 (vacuously when absent) |
| Results.SaveLoadRoundTrip | components/political-compass/political-compass-results.tsx:50-57 | a record read back after writing shows the written position |
| Results.DefaultIsTrueNeutral | components/political-compass/political-compass-results.tsx:25-30 | the fallback position is "True Neutral" in the "Authoritarian Right" quadrant |
| Results.DirectionOf | components/political-compass/political-compass-results.tsx:326-343 | "Center" exactly at 0, the negative word exactly below 0 |
| Results.ZoomIn | components/political-compass/political-compass-results.tsx:79-81 | a valid zoom level stays valid; no change while the button is disabled (at 2), one step of 0.25 up otherwise |
| Results.ZoomOut | components/political-compass/political-compass-results.tsx:83-85 | a valid zoom level stays valid; no change while the button is disabled (at 0.5), one step of 0.25 down otherwise |
| Results.ZoomInOutCancel | components/political-compass/political-compass-results.tsx:79-85 | between the bounds, a click in followed by a click out (or the reverse) returns to the same level |
| Results.ZoomStaysInBounds | components/political-compass/political-compass-results.tsx:79-85 | any series of zoom clicks from a valid level stays within [0.5, 2] |
| Results.InitialZoomReachable | components/political-compass/political-compass-results.tsx:44 | from the initial level 1 every series of clicks stays within [0.5, 2] |
| TestFlow.SubmitRecord | components/political-compass/political-compass-test.tsx:137-180 | the stored record holds the completed responses and the scores of the raw answers, positions rescaled from them |
| TestFlow.SubmitRecordInRange | components/political-compass/political-compass-test.tsx:151-180 | with slider values the stored scores lie in [0, 100] and positions in [-100, 100] |
| TestFlow.SubmitNothingAnswered | components/political-compass/political-compass-test.tsx:139-180 | submitting with nothing answered stores the default position |
| TestFlow.SubmitZeroAnswer | components/political-compass/political-compass-test.tsx:156-178 | a 0 answer is stored as 0 but scores like 50 |
| TestFlow.SubmitThenLoadNeutralFlag | components/political-compass/political-compass-results.tsx:59-63 | the record read back is flagged neutral exactly when every given answer was 50 |
| TestFlow.NeutralFlagMeansTrueNeutral | components/political-compass/political-compass-results.tsx:110 | a flagged record is headlined "Authoritarian Right" / "True Neutral" |
| TestFlow.BalancedAnswersScoreNeutral | components/political-compass/political-compass-test.tsx:151-168 | answers 40 and 60 on two economic questions score the origin |
| TestFlow.BalancedAnswersNotFlagged | components/political-compass/political-compass-results.tsx:59-63 | that origin is "True Neutral" without the neutral flag |
| TestFlow.AllEconomicAgree | components/political-compass/political-compass-results.tsx:121-141 | all economic answers 100 give (100, 0), "Right Authoritarian" by fall-through |
| TestFlow.PreviousTarget | components/political-compass/political-compass-test.tsx:252-255 | "Previous" targets the question before the cursor, and 0 from the first question; a valid index stays valid |
| TestFlow.NextTarget | components/political-compass/political-compass-test.tsx:260 | "Next" targets the following valid index |
| TestFlow.FooterExclusive | components/political-compass/political-compass-test.tsx:260-271 | on every question exactly one of "Next" and "See Results" is shown |
| TestFlow.NavigateStaysValid | components/political-compass/political-compass-test.tsx:252-264 | any series of footer clicks keeps the cursor a valid index |
| TestFlow.TooltipCounts | components/political-compass/political-compass-test.tsx:282-285 | answered plus neutral is 30; the neutral count is the unanswered questions, positive iff one exists |
| Slider.RoundHalfUp | components/political-compass/custom-slider.tsx:52 | the result is the integer within half a unit, halves rounded up |
| Slider.Percentage | components/political-compass/custom-slider.tsx:49-51 | the percentage lies in [0, 100], 0 at or left of the track, 100 at or right of its end; over the track it is the offset from the left edge in hundredths of the width |
| Slider.UpdateValue | components/political-compass/custom-slider.tsx:46-53 | no track, no emission; a positive width emits the rounded clamped percentage; a zero width emits 0, 100 or NaN by side |
| Slider.UpdateValueMonotone | components/political-compass/custom-slider.tsx:49-52 | moving the mouse right never lowers the emitted value |
| Slider.GradientStyle | components/political-compass/custom-slider.tsx:16-34 | neutral exactly at 50, the side of the value otherwise; the intensity is the distance from 50 divided by 50, in (0, 1] over the slider range and full at 0 and 100 |
| Slider.GradientMirror | components/political-compass/custom-slider.tsx:23-31 | values mirrored about 50 get equal intensities on opposite sides |
| Slider.GradientIntensityMonotone | components/political-compass/custom-slider.tsx:23-31 | farther from 50 on one side, stronger gradient |
| Labels.ResponseLabel | components/political-compass/political-compass-test.tsx:51-61 | "Neutral" exactly at 50, "Strongly Agree" from 87.5, the rank is the number of 12.5 bands below, plus one above 50 |
| Labels.ResponseLabelMonotone | political-compass-test.tsx:45-55 | a higher value never gets a lower label |
| Labels.LabelAgreesWithGradient | components/political-compass/custom-slider.tsx:16-34 | the label and the track gradient agree on the side of 50 |
| Labels.LeanOf | political-compass-test.tsx:291 | positive heading above 20, negative below -20, centrist between |
| Labels.StanceRefinesLean | political-compass-test.tsx:294-302 | each description sentence belongs to its heading; the strong sentences exactly beyond ±50 |
| Labels.AnalyseCentrism | political-compass-test.tsx:326-330 | passive within 10 on both axes, radical within 20 but not 10, a mix otherwise |
| Labels.AnalysisAgreesWithIdeology | political-compass-test.tsx:326-330 | some centrism is seen exactly where the ideology tree says "Centrist" or "True Neutral" |
| Labels.CentrismMeansCentristHeadings | political-compass-test.tsx:291-330 | where centrism is seen both headings say "Centrist" |
| Projection.DeviationSumSet | political-compass-test.tsx:127-130 | setting an entry to v moves the sum by v - 50 per occurrence, relative to leaving it out |
| Projection.UnansweredIsNeutral | political-compass-test.tsx:127-135 | an unanswered question contributes as a neutral answer |
| Projection.SubsetsDistinct | political-compass-test.tsx:127-135 | neither subset lists a question twice |
| Projection.ZeroAnswerPullsBias | political-compass-test.tsx:127-130 | a 0 answer lowers the bias by 6.25, unlike in the axis scores |
| Projection.DeviationAgreesWithScoredSum | political-compass-test.tsx:127-135 | with no 0 answers, the deviation sum is the axis-style sum less 50 per question |
| Projection.DeviationSumBounds | political-compass-test.tsx:127-135 | with slider values, the sum lies within ±50 per question |
| Projection.BiasBounds | political-compass-test.tsx:127-135 | both biases lie in [-50, 50] |
| Projection.Jitter | political-compass-test.tsx:138-140 | a draw in [0, 1) gives a jitter in [-7.5, 7.5), and the draw is recovered from the jitter as (j + 7.5) / 15, so the jitter is 15u - 7.5 |
| Projection.MdsPosition | political-compass-test.tsx:120-143 | each coordinate lies in [bias - 7.5, bias + 7.5), and its offset from the bias recovers that coordinate's draw, so the point is bias plus 15r - 7.5 |
| Projection.MdsPositionBounds | political-compass-test.tsx:120-143 | with slider values the point lies in [-57.5, 57.5) on both coordinates |
| Projection.MdsPositionNoAnswers | political-compass-test.tsx:127-140 | with no answers the point is the jitter alone |
| Projection.SquaredDistance | political-compass-test.tsx:341-343 | distances are non-negative |
| Projection.Insert | political-compass-test.tsx:345 | insertion adds exactly the new entry |
| Projection.InsertRanks | political-compass-test.tsx:345 | insertion of an entry earlier in the catalog keeps the ranking order |
| Projection.Distances | political-compass-test.tsx:340-344 | one entry per archetype, in catalog order, each paired with its squared distance to the point |
| Projection.Sort | political-compass-test.tsx:345 | sorting keeps exactly the same entries |
| Projection.SortRanks | political-compass-test.tsx:345 | sorting entries in catalog order yields nearer first, ties in catalog order |
| Projection.Ranking | political-compass-test.tsx:340-345 | all 10 archetypes, each once with its distance, nearer first, ties in catalog order |
| Projection.Nearest | political-compass-test.tsx:346 | the first named archetype is a nearest one, the second is nearest among the rest; among equally near archetypes the earlier catalog entry is named, as the stable sort leaves it |
| Projection.NearestTwoWayTie | political-compass-test.tsx:345-346 | when exactly two archetypes share the least distance, the one earlier in the catalog is named first and the other second |
| Projection.TiePointPremises | political-compass-test.tsx:340-346 | at (5, -2.5) "Centrist" and "Radical Centrist" tie at squared distance 31.25 and every other archetype is farther, so "Centrist" is named first |
| Projection.NearestFacts | political-compass-test.tsx:340-346 | the first two ranked entries are distinct catalog archetypes at minimal distances, each with the smallest id among its equally near candidates |
| QuizPage.SubmitEnabledIff | political-compass-test.tsx:435 | "See Results" is enabled exactly from 15 entries |
| QuizPage.Answer | political-compass-test.tsx:108-113 | answering adds the key with its value, every other stored answer keeps its value, and nothing but the responses changes |
| QuizPage.AnswerKeepsSubmitEnabled | political-compass-test.tsx:435 | answering never disables "See Results" |
| QuizPage.SeeResults | political-compass-test.tsx:428-439 | in the quiz view, on the last question with the gate open, the summary is shown with the projected point; otherwise, and always once the summary is shown, nothing changes |
| QuizPage.SummaryNeedsHalfAnswered | political-compass-test.tsx:428-439 | reaching the summary needs 15 entries and the last question |
| QuizPage.Retake | political-compass-test.tsx:354-360 | retake gives the initial page, keeping only the projected point |
| QuizPage.RetakeStartsOver | political-compass-test.tsx:354-360 | after a retake the gate is closed, sliders show "Neutral", positions are the origin |
| QuizPage.DisplayedValue | political-compass-test.tsx:402-406 | the shown value is the stored one unless missing or 0, then 50 |
| QuizPage.ZeroDisplaysNeutral | political-compass-test.tsx:402-406 | a recorded 0 shows "Neutral" on a neutral track yet still counts as an entry |
| QuizPage.AnswerDisplayed | political-compass-test.tsx:402-406 | any answer in (0, 100] is shown and labelled as given |
| QuizPage.SummaryAgreesWithStoredRecord | political-compass-test.tsx:163-170 | the standalone summary places the respondent where the component page stores them |
| QuizPage.SummaryOf | political-compass-test.tsx:289-330 | "Right"/"Left" and "Authoritarian"/"Libertarian" exactly beyond 20 either way; the strong sentences exactly beyond 50; some centrism exactly within 20 on both axes, passive exactly within 10; a centrist heading goes with the balanced sentence, and centrism is seen only under two centrist headings |

## Left out

- **Presentation.** React rendering, JSX layout, dialogs, tooltips as widgets, animation, and the colour strings of the slider track. These are presentation only. The gradient is modelled by its side and intensity.
- **Browser plumbing.** Cursor updates driven by IntersectionObserver, `scrollIntoView`, `setTimeout` and the progress bar are asynchronous plumbing. The cursor moves only through the Previous and Next rules.
- **Storage.** `localStorage` and JSON text are not modelled. The storage slot holds the record itself, or reports it missing or unparseable.
- **Parsed records with missing fields.** A parsed record whose fields are missing or mistyped is not modelled, and neither is the default position showing through for such a record.
- **Randomness.** `Math.random` is not called. Its two draws are parameters.
- **Square root.** `Math.sqrt` in the distances is left out, because the ranking uses squared distances, which give the same order.
- **Text formatting.** `toFixed` and `toLowerCase` of the names are left out.
- **Routing and other pages.** Router navigation, the survey pages and context, the landing page and the middleware are outside the scoring core.
- **Unused value.** `avgDeviation` in `calculateMdsPosition` is computed and never used.
- **Figures overlay.** The political figures overlay only displays constant points.
- **Floating point.** Rounding is not modelled, and neither is NaN reaching the response map. Values are exact reals.
- **Headline, EconomicHeading, SocialHeading, EconomicDirectionName, SocialDirectionName, StrongLabel, ComputeAxes.** These carry no contract of their own. Their behaviour is stated through the lemmas above.
- **Axis.ScoredSum, Axis.Score** (political-compass-test.tsx:164-169). These carry no contract of their own. `Axis.ScoredSumBounds`, `Axis.ScoreInRange`, `Axis.ScoredSumAppend`, `Axis.ScoreConstant` and `Axis.ScoredSumIgnoresOthers` state their behaviour.
- **Projection.Deviation, Projection.DeviationSum, Projection.Bias** (political-compass-test.tsx:127-135). These carry no contract of their own. `Projection.DeviationAgreesWithScoredSum`, `Projection.DeviationSumBounds`, `Projection.BiasBounds`, `Projection.DeviationSumZero` and `Projection.ZeroAnswerPullsBias` state their behaviour.
- **Labels.StanceOf** (political-compass-test.tsx:294-302). It carries no contract of its own. `Labels.StanceRefinesLean` states its five cases against the heading.
- **Responses.AnsweredCount, Responses.NeutralCount** (components/political-compass/political-compass-test.tsx:196-197). These carry no contract of their own. `Responses.NeutralCountIsUnanswered` and `TestFlow.TooltipCounts` state their behaviour.
- **QuizPage.SubmitEnabled** (political-compass-test.tsx:435). It carries no contract of its own. `QuizPage.SubmitEnabledIff` states it as "at least 15 entries".
- **Projection.SquaredDistance:** states only non-negativity, not that the distance is zero exactly at the archetype's own point.
- **Results.SaveLoadRoundTrip:** states the round trip for the position only. The results page keeps the stored responses only to compute the neutral flag, and `Results.LoadResults` states that flag.

=== FILE: axis.dfy ===
/**
 Axis aggregation: each axis score is the unweighted mean, over a fixed list of
 questions, of the values the score reads (`responses[q] || 50`), and is then
 rescaled to a position in [-100, 100].
 */
module Axis {
  import opened Responses

  /** Questions on the economic (left-right) axis. */
  const EconomicQuestions: seq<int> := [0, 2, 9, 11, 12, 15, 21, 23, 26]

  /** Questions on the social (libertarian-authoritarian) axis. */
  const SocialQuestions: seq<int> := [1, 4, 6, 7, 10, 13, 16, 19, 20, 22, 25, 28]

  predicate AllQuestions(qs: seq<int>) {
    forall i :: 0 <= i < |qs| ==> IsQuestion(qs[i])
  }

  /** Sum of the values a score reads over `qs`, in list order. */
  function ScoredSum(r: ResponseMap, qs: seq<int>): real
    decreases |qs|
  {
    if |qs| == 0 then 0.0 else ScoredValue(r, qs[0]) + ScoredSum(r, qs[1..])
  }

  /** The raw axis score: the mean of the read values. */
  function Score(r: ResponseMap, qs: seq<int>): real
    requires |qs| > 0
  {
    ScoredSum(r, qs) / (|qs| as real)
  }

  /** Rescaling of a raw score in [0, 100] to a position in [-100, 100].
      The rescaling is invertible: half the position plus 50 gives back the
      score, and the neutral score is the only one placed at the origin. */
  function Position(score: real): (p: real)
    ensures p / 2.0 + 50.0 == score
    ensures p == 0.0 <==> score == Neutral
  {
    (score - 50.0) / 50.0 * 100.0
  }

  /** The rescaling is strictly increasing. */
  lemma PositionStrictlyIncreasing(a: real, b: real)
    ensures a < b <==> Position(a) < Position(b)
  {
  }

  /** Raw scores and positions of both axes. */
  datatype AxisScores = AxisScores(economicScore: real, socialScore: real, economic: real, social: real)

  /** Both axes computed from one response set. */
  function ComputeAxes(r: ResponseMap): AxisScores {
    var e := Score(r, EconomicQuestions);
    var s := Score(r, SocialQuestions);
    AxisScores(e, s, Position(e), Position(s))
  }

  /** With every value in the slider range, both scores lie in [0, 100] and
      both positions in [-100, 100]. */
  lemma ComputeAxesInRange(r: ResponseMap)
    requires AllInRange(r)
    ensures var a := ComputeAxes(r);
            && 0.0 <= a.economicScore <= 100.0 && 0.0 <= a.socialScore <= 100.0
            && -100.0 <= a.economic <= 100.0 && -100.0 <= a.social <= 100.0
  {
    ScoreInRange(r, EconomicQuestions);
    ScoreInRange(r, SocialQuestions);
  }

  /** With every value in the slider range, the summed read values lie
      between 0 and 100 per question. */
  lemma {:induction false} ScoredSumBounds(r: ResponseMap, qs: seq<int>)
    requires AllInRange(r)
    ensures 0.0 <= ScoredSum(r, qs) <= 100.0 * (|qs| as real)
    decreases |qs|
  {
    if |qs| > 0 {
      ScoredSumBounds(r, qs[1..]);
    }
  }

  /** With every value in the slider range, a score lies in [0, 100] and its
      position in [-100, 100]. */
  lemma ScoreInRange(r: ResponseMap, qs: seq<int>)
    requires AllInRange(r) && |qs| > 0
    ensures 0.0 <= Score(r, qs) <= 100.0
    ensures -100.0 <= Position(Score(r, qs)) <= 100.0
  {
    ScoredSumBounds(r, qs);
    MeanBounds(ScoredSum(r, qs), |qs| as real);
  }

  lemma MeanBounds(sum: real, n: real)
    requires n > 0.0 && 0.0 <= sum <= 100.0 * n
    ensures 0.0 <= sum / n <= 100.0
  {
    var m := sum / n;
    assert m * n == sum;
  }

  /** When every question of the list reads the same value `v`, the sum is
      `v` once per question. */
  lemma {:induction false} ScoredSumConstant(r: ResponseMap, qs: seq<int>, v: real)
    requires forall i :: 0 <= i < |qs| ==> ScoredValue(r, qs[i]) == v
    ensures ScoredSum(r, qs) == v * (|qs| as real)
    decreases |qs|
  {
    if |qs| > 0 {
      assert ScoredValue(r, qs[0]) == v;
      forall i | 0 <= i < |qs[1..]| ensures ScoredValue(r, qs[1..][i]) == v {
        assert qs[1..][i] == qs[i + 1];
      }
      ScoredSumConstant(r, qs[1..], v);
    }
  }

  /** The sum over a concatenation is the sum of the parts. */
  lemma {:induction false} ScoredSumAppend(r: ResponseMap, a: seq<int>, b: seq<int>)
    ensures ScoredSum(r, a + b) == ScoredSum(r, a) + ScoredSum(r, b)
    decreases |a|
  {
    if |a| > 0 {
      assert (a + b)[0] == a[0];
      assert (a + b)[1..] == a[1..] + b;
      ScoredSumAppend(r, a[1..], b);
    } else {
      assert a + b == b;
    }
  }

  /** The score is a mean: if every question of the list reads `v`, the score
      is `v`. */
  lemma ScoreConstant(r: ResponseMap, qs: seq<int>, v: real)
    requires |qs| > 0
    requires forall i :: 0 <= i < |qs| ==> ScoredValue(r, qs[i]) == v
    ensures Score(r, qs) == v
  {
    ScoredSumConstant(r, qs, v);
  }

  /** With no answers at all, both scores are neutral and both positions are
      at the origin. */
  lemma NoAnswersIsNeutral()
    ensures ComputeAxes(map[]) == AxisScores(Neutral, Neutral, 0.0, 0.0)
  {
    ScoreConstant(map[], EconomicQuestions, Neutral);
    ScoreConstant(map[], SocialQuestions, Neutral);
  }

  /** A set whose every recorded value is neutral scores neutral on both axes. */
  lemma AllNeutralScoresNeutral(r: ResponseMap)
    requires AllNeutral(r)
    ensures ComputeAxes(r) == AxisScores(Neutral, Neutral, 0.0, 0.0)
  {
    ScoreConstant(r, EconomicQuestions, Neutral);
    ScoreConstant(r, SocialQuestions, Neutral);
  }

  /** The `|| 50` quirk: a recorded 0 contributes exactly what a neutral
      answer contributes. */
  lemma {:induction false} ZeroReadsAsNeutral(r: ResponseMap, q: int, qs: seq<int>)
    ensures ScoredSum(r[q := 0.0], qs) == ScoredSum(r[q := Neutral], qs)
    ensures ScoredSum(r[q := 0.0], qs) == ScoredSum(r - {q}, qs)
    decreases |qs|
  {
    if |qs| > 0 {
      ZeroReadsAsNeutral(r, q, qs[1..]);
    }
  }

  /** Answering a question outside the list leaves the sum unchanged; in
      particular the two axes, whose lists are disjoint, do not influence
      each other. */
  lemma {:induction false} ScoredSumIgnoresOthers(r: ResponseMap, q: int, v: real, qs: seq<int>)
    requires forall i :: 0 <= i < |qs| ==> qs[i] != q
    ensures ScoredSum(r[q := v], qs) == ScoredSum(r, qs)
    decreases |qs|
  {
    if |qs| > 0 {
      assert qs[0] != q;
      forall i | 0 <= i < |qs[1..]| ensures qs[1..][i] != q {
        assert qs[1..][i] == qs[i + 1];
      }
      ScoredSumIgnoresOthers(r, q, v, qs[1..]);
    }
  }

  /** Answering an economic question leaves the social score as it was, and
      vice versa. */
  lemma AxesIndependent(r: ResponseMap, q: int, v: real)
    ensures q in EconomicQuestions ==>
              ComputeAxes(r[q := v]).socialScore == ComputeAxes(r).socialScore
    ensures q in SocialQuestions ==>
              ComputeAxes(r[q := v]).economicScore == ComputeAxes(r).economicScore
  {
    if q in EconomicQuestions {
      ScoredSumIgnoresOthers(r, q, v, SocialQuestions);
    }
    if q in SocialQuestions {
      ScoredSumIgnoresOthers(r, q, v, EconomicQuestions);
    }
  }

  /** Completion does not change what a score reads, so scores over question
      indices are the same before and after completion. */
  lemma {:induction false} ScoredSumAfterComplete(r: ResponseMap, qs: seq<int>)
    requires AllQuestions(qs)
    ensures ScoredSum(Complete(r), qs) == ScoredSum(r, qs)
    decreases |qs|
  {
    if |qs| > 0 {
      ScoredValueAfterComplete(r, qs[0]);
      assert AllQuestions(qs[1..]) by {
        forall i | 0 <= i < |qs[1..]| ensures IsQuestion(qs[1..][i]) {
          assert qs[1..][i] == qs[i + 1];
        }
      }
      ScoredSumAfterComplete(r, qs[1..]);
    }
  }

  /** Both axes are unchanged by completion. */
  lemma ComputeAxesAfterComplete(r: ResponseMap)
    ensures ComputeAxes(Complete(r)) == ComputeAxes(r)
  {
    assert AllQuestions(EconomicQuestions);
    assert AllQuestions(SocialQuestions);
    ScoredSumAfterComplete(r, EconomicQuestions);
    ScoredSumAfterComplete(r, SocialQuestions);
  }
}

=== FILE: classifier.dfy ===
/**
 Classification of an axis position pair (economic, social) into a quadrant,
 by sign, and an ideology label, by an ordered decision tree with thresholds
 0, 20, 50 and 70.
 */
module Classifier {
  import opened Options

  function Abs(x: real): real {
    if x < 0.0 then -x else x
  }

  datatype Quadrant = AuthoritarianRight | LibertarianRight | AuthoritarianLeft | LibertarianLeft {
    /** The label shown on the results page. */
    function Name(): string {
      match this
      case AuthoritarianRight => "Authoritarian Right"
      case LibertarianRight => "Libertarian Right"
      case AuthoritarianLeft => "Authoritarian Left"
      case LibertarianLeft => "Libertarian Left"
    }
  }

  /** Quadrant by sign alone; zero counts as non-negative on both axes. */
  function QuadrantOf(economic: real, social: real): (q: Quadrant)
    ensures q == AuthoritarianRight <==> economic >= 0.0 && social >= 0.0
    ensures q == LibertarianRight <==> economic >= 0.0 && social < 0.0
    ensures q == AuthoritarianLeft <==> economic < 0.0 && social >= 0.0
    ensures q == LibertarianLeft <==> economic < 0.0 && social < 0.0
  {
    if economic >= 0.0 && social >= 0.0 then AuthoritarianRight
    else if economic >= 0.0 && social < 0.0 then LibertarianRight
    else if economic < 0.0 && social >= 0.0 then AuthoritarianLeft
    else LibertarianLeft
  }

  /** The quadrant depends only on which side of zero each coordinate lies. */
  lemma QuadrantDependsOnSignsOnly(e: real, s: real, e': real, s': real)
    requires (e >= 0.0 <==> e' >= 0.0) && (s >= 0.0 <==> s' >= 0.0)
    ensures QuadrantOf(e, s) == QuadrantOf(e', s')
  {
  }

  datatype Ideology =
    | TrueNeutral
      // extreme tier
    | AnarchoCommunism | AuthoritarianCommunism | AnarchoCapitalism | Fascism
      // strong tier
    | LibertarianSocialism | StateSocialism | RightLibertarianism | Conservative
    | LeftAuthoritarianism | RightAuthoritarianism
    | SocialLibertarianism | SocialAuthoritarianism
      // moderate tier
    | Centrist
      // leaning tier
    | LeftLibertarian | LeftAuthoritarian | RightLibertarian | RightAuthoritarian
  {
    /** The label shown on the results page. */
    function Name(): string {
      match this
      case TrueNeutral => "True Neutral"
      case AnarchoCommunism => "Anarcho-Communism"
      case AuthoritarianCommunism => "Authoritarian Communism"
      case AnarchoCapitalism => "Anarcho-Capitalism"
      case Fascism => "Fascism"
      case LibertarianSocialism => "Libertarian Socialism"
      case StateSocialism => "State Socialism"
      case RightLibertarianism => "Right Libertarianism"
      case Conservative => "Conservative"
      case LeftAuthoritarianism => "Left Authoritarianism"
      case RightAuthoritarianism => "Right Authoritarianism"
      case SocialLibertarianism => "Social Libertarianism"
      case SocialAuthoritarianism => "Social Authoritarianism"
      case Centrist => "Centrist"
      case LeftLibertarian => "Left Libertarian"
      case LeftAuthoritarian => "Left Authoritarian"
      case RightLibertarian => "Right Libertarian"
      case RightAuthoritarian => "Right Authoritarian"
    }

    /** The quadrant a label names, if it names one. */
    function ImpliedQuadrant(): Option<Quadrant> {
      match this
      case AnarchoCommunism | LibertarianSocialism | LeftLibertarian => Some(LibertarianLeft)
      case AuthoritarianCommunism | StateSocialism | LeftAuthoritarianism | LeftAuthoritarian => Some(AuthoritarianLeft)
      case AnarchoCapitalism | RightLibertarianism | RightLibertarian => Some(LibertarianRight)
      case Fascism | Conservative | RightAuthoritarianism | RightAuthoritarian => Some(AuthoritarianRight)
      case TrueNeutral | SocialLibertarianism | SocialAuthoritarianism | Centrist => None
    }
  }

  /** The strong tier: the first compound rule that matches, or `None` when the
      point is not strong or no rule matches (control then falls through). */
  function StrongLabel(e: real, s: real): Option<Ideology> {
    if Abs(e) > 50.0 || Abs(s) > 50.0 then
      if e < -50.0 && s < 0.0 then Some(LibertarianSocialism)
      else if e < -50.0 && s > 0.0 then Some(StateSocialism)
      else if e > 50.0 && s < 0.0 then Some(RightLibertarianism)
      else if e > 50.0 && s > 0.0 then Some(Conservative)
      else if e < 0.0 && s > 50.0 then Some(LeftAuthoritarianism)
      else if e > 0.0 && s > 50.0 then Some(RightAuthoritarianism)
      else if Abs(e) < 20.0 && s < -50.0 then Some(SocialLibertarianism)
      else if Abs(e) < 20.0 && s > 50.0 then Some(SocialAuthoritarianism)
      else None
    else None
  }

  /** The ordered decision tree of the results page. */
  function IdeologyOf(e: real, s: real): (l: Ideology)
    ensures InRegion(l, e, s)
  {
    if e == 0.0 && s == 0.0 then TrueNeutral
    else if Abs(e) > 70.0 && Abs(s) > 70.0 then
      if e < 0.0 && s < 0.0 then AnarchoCommunism
      else if e < 0.0 && s > 0.0 then AuthoritarianCommunism
      else if e > 0.0 && s < 0.0 then AnarchoCapitalism
      else Fascism
    else match StrongLabel(e, s)
      case Some(l) => l
      case None =>
        if Abs(e) < 20.0 && Abs(s) < 20.0 then Centrist
        else if e < 0.0 && s < 0.0 then LeftLibertarian
        else if e < 0.0 && s > 0.0 then LeftAuthoritarian
        else if e > 0.0 && s < 0.0 then RightLibertarian
        else RightAuthoritarian
  }

  /** Points the ordered tree hands to its last (leaning) tier, described
      without reference to rule order: strong on the economic axis but
      exactly on the social axis, libertarian beyond 50 with a moderate
      economic lean, or neither strong nor moderate. */
  predicate Leaning(e: real, s: real) {
    || (Abs(e) > 50.0 && s == 0.0)
    || (s < -50.0 && 20.0 <= Abs(e) <= 50.0)
    || (Abs(e) <= 50.0 && Abs(s) <= 50.0 && !(Abs(e) < 20.0 && Abs(s) < 20.0))
  }

  /** The region of the plane each label covers, written as a partition of
      the plane rather than as an ordered list of rules. */
  predicate InRegion(l: Ideology, e: real, s: real) {
    match l
    case TrueNeutral => e == 0.0 && s == 0.0
    case AnarchoCommunism => e < -70.0 && s < -70.0
    case AuthoritarianCommunism => e < -70.0 && s > 70.0
    case AnarchoCapitalism => e > 70.0 && s < -70.0
    case Fascism => e > 70.0 && s > 70.0
    case LibertarianSocialism => e < -50.0 && s < 0.0 && !(e < -70.0 && s < -70.0)
    case StateSocialism => e < -50.0 && s > 0.0 && !(e < -70.0 && s > 70.0)
    case RightLibertarianism => e > 50.0 && s < 0.0 && !(e > 70.0 && s < -70.0)
    case Conservative => e > 50.0 && s > 0.0 && !(e > 70.0 && s > 70.0)
    case LeftAuthoritarianism => -50.0 <= e < 0.0 && s > 50.0
    case RightAuthoritarianism => 0.0 < e <= 50.0 && s > 50.0
    case SocialLibertarianism => -20.0 < e < 20.0 && s < -50.0
    case SocialAuthoritarianism => e == 0.0 && s > 50.0
    case Centrist => -20.0 < e < 20.0 && -20.0 < s < 20.0 && !(e == 0.0 && s == 0.0)
    case LeftLibertarian => Leaning(e, s) && e < 0.0 && s < 0.0
    case LeftAuthoritarian => Leaning(e, s) && e < 0.0 && s > 0.0
    case RightLibertarian => Leaning(e, s) && e > 0.0 && s < 0.0
    case RightAuthoritarian => Leaning(e, s) && (e == 0.0 || s == 0.0 || (e > 0.0 && s > 0.0))
  }

  /** No point lies in two regions, so the regions are a partition and the
      label is the one whose region contains the point. */
  lemma RegionsDisjoint(l: Ideology, l': Ideology, e: real, s: real)
    requires InRegion(l, e, s) && InRegion(l', e, s)
    ensures l == l'
  {
  }

  lemma IdeologyIffRegion(l: Ideology, e: real, s: real)
    ensures IdeologyOf(e, s) == l <==> InRegion(l, e, s)
  {
    if InRegion(l, e, s) {
      RegionsDisjoint(l, IdeologyOf(e, s), e, s);
    }
  }

  /** "True Neutral" is given at the origin and nowhere else. */
  lemma TrueNeutralOnlyAtOrigin(e: real, s: real)
    ensures IdeologyOf(e, s) == TrueNeutral <==> e == 0.0 && s == 0.0
  {
    IdeologyIffRegion(TrueNeutral, e, s);
  }

  /** Beyond 70 on both axes the label is one of the four extreme labels,
      chosen by the pair of signs; "Fascism" is given exactly there with both
      coordinates positive. */
  lemma ExtremeTier(e: real, s: real)
    ensures Abs(e) > 70.0 && Abs(s) > 70.0 ==>
              IdeologyOf(e, s) == (if e < 0.0 && s < 0.0 then AnarchoCommunism
                                   else if e < 0.0 then AuthoritarianCommunism
                                   else if s < 0.0 then AnarchoCapitalism
                                   else Fascism)
    ensures IdeologyOf(e, s) == Fascism <==> e > 70.0 && s > 70.0
  {
    IdeologyIffRegion(Fascism, e, s);
  }

  /** Where no strong rule matches, control falls through to the later
      tiers: strong economic points exactly on the social axis, and strongly
      libertarian points with an economic lean between 20 and 50. */
  lemma StrongTierFallThrough(e: real, s: real)
    ensures Abs(e) > 50.0 && s == 0.0 ==> IdeologyOf(e, s) == RightAuthoritarian
    ensures s < -50.0 && 20.0 <= e <= 50.0 ==> IdeologyOf(e, s) == RightLibertarian
    ensures s < -50.0 && -50.0 <= e <= -20.0 ==> IdeologyOf(e, s) == LeftLibertarian
  {
  }

  /** A point off the origin within 20 of it on both axes is "Centrist", and
      only such points are. */
  lemma CentristIff(e: real, s: real)
    ensures IdeologyOf(e, s) == Centrist <==>
              Abs(e) < 20.0 && Abs(s) < 20.0 && !(e == 0.0 && s == 0.0)
  {
    IdeologyIffRegion(Centrist, e, s);
  }

  /** The last rule of the tree catches every point of the leaning tier that
      is not strictly in one of the other three sign quadrants, including
      every leaning point on either axis. */
  lemma RightAuthoritarianFallback(e: real, s: real)
    ensures IdeologyOf(e, s) == RightAuthoritarian <==>
              Leaning(e, s) && !(e < 0.0 && s < 0.0) && !(e < 0.0 && s > 0.0) && !(e > 0.0 && s < 0.0)
  {
    IdeologyIffRegion(RightAuthoritarian, e, s);
  }

  /** Off both axes, every label that names a quadrant names the quadrant the
      point is in. */
  lemma IdeologyAgreesWithQuadrant(e: real, s: real)
    requires e != 0.0 && s != 0.0
    ensures IdeologyOf(e, s).ImpliedQuadrant().Some? ==>
              IdeologyOf(e, s).ImpliedQuadrant().value == QuadrantOf(e, s)
  {
  }

  /** On an axis the two classifiers can disagree: (0, -30) is in the
      libertarian-right quadrant, but its label is "Right Authoritarian";
      likewise (-100, 0) is authoritarian-left but labelled
      "Right Authoritarian". */
  lemma AxisPointsDisagree()
    ensures QuadrantOf(0.0, -30.0) == LibertarianRight
    ensures IdeologyOf(0.0, -30.0) == RightAuthoritarian
    ensures QuadrantOf(-100.0, 0.0) == AuthoritarianLeft
    ensures IdeologyOf(-100.0, 0.0) == RightAuthoritarian
  {
  }

  /** The boundary cases: the origin, the two extreme corners, and the
      strong economic point on the social axis. */
  lemma BoundaryCases()
    ensures QuadrantOf(0.0, 0.0) == AuthoritarianRight && IdeologyOf(0.0, 0.0) == TrueNeutral
    ensures QuadrantOf(100.0, 100.0) == AuthoritarianRight && IdeologyOf(100.0, 100.0) == Fascism
    ensures QuadrantOf(-100.0, -100.0) == LibertarianLeft && IdeologyOf(-100.0, -100.0) == AnarchoCommunism
    ensures QuadrantOf(100.0, 0.0) == AuthoritarianRight && IdeologyOf(100.0, 0.0) == RightAuthoritarian
  {
  }
}

=== FILE: labels.dfy ===
/**
 Text classifiers: the Likert label under each slider, the per-axis headings
 and descriptions of the result summary, and the centrist analysis.
 */
module Labels {
  import Classifier
  import Slider

  datatype Likert =
    | StronglyDisagree | Disagree | SomewhatDisagree | SlightlyDisagree
    | NeutralLabel
    | SlightlyAgree | SomewhatAgree | Agree | StronglyAgree
  {
    /** Position of the label on the scale, 0 (strongly disagree) to 8. */
    function Rank(): nat {
      match this
      case StronglyDisagree => 0
      case Disagree => 1
      case SomewhatDisagree => 2
      case SlightlyDisagree => 3
      case NeutralLabel => 4
      case SlightlyAgree => 5
      case SomewhatAgree => 6
      case Agree => 7
      case StronglyAgree => 8
    }

    function Name(): string {
      match this
      case StronglyDisagree => "Strongly Disagree"
      case Disagree => "Disagree"
      case SomewhatDisagree => "Somewhat Disagree"
      case SlightlyDisagree => "Slightly Disagree"
      case NeutralLabel => "Neutral"
      case SlightlyAgree => "Slightly Agree"
      case SomewhatAgree => "Somewhat Agree"
      case Agree => "Agree"
      case StronglyAgree => "Strongly Agree"
    }
  }

  /** The label for a slider value: eight bands of width 12.5 over [0, 100],
      with exactly 50 set apart as "Neutral" (the band just above it starts
      right after 50). In terms of the bands: below 50 the rank is the
      number of whole bands below the value; above 50 it is one more than
      that, capped at the top label. */
  function ResponseLabel(v: real): (l: Likert)
    ensures l == NeutralLabel <==> v == 50.0
    ensures l == StronglyAgree <==> v >= 87.5
    ensures l == StronglyDisagree <==> v < 12.5
    ensures l.Rank() < 4 <==> v < 50.0
    ensures 0.0 <= v < 50.0 ==> l.Rank() == (v / 12.5).Floor
    ensures v > 50.0 ==> l.Rank() == Min(8, (v / 12.5).Floor + 1)
  {
    if v < 12.5 then StronglyDisagree
    else if v < 25.0 then Disagree
    else if v < 37.5 then SomewhatDisagree
    else if v < 50.0 then SlightlyDisagree
    else if v == 50.0 then NeutralLabel
    else if v < 62.5 then SlightlyAgree
    else if v < 75.0 then SomewhatAgree
    else if v < 87.5 then Agree
    else StronglyAgree
  }

  function Min(a: int, b: int): int {
    if a < b then a else b
  }

  /** A higher slider value never gets a label lower on the scale. */
  lemma ResponseLabelMonotone(a: real, b: real)
    requires a <= b
    ensures ResponseLabel(a).Rank() <= ResponseLabel(b).Rank()
  {
  }

  /** The label and the track gradient agree on the side of 50. */
  lemma LabelAgreesWithGradient(v: real)
    ensures ResponseLabel(v) == NeutralLabel <==> Slider.GradientStyle(v).NeutralTrack?
    ensures ResponseLabel(v).Rank() < 4 <==> Slider.GradientStyle(v).TowardLeft?
    ensures ResponseLabel(v).Rank() > 4 <==> Slider.GradientStyle(v).TowardRight?
  {
  }

  // Axis headings and descriptions

  /** Heading word of one axis: beyond 20 either way, or in between. */
  datatype Lean = PositiveLean | NegativeLean | Balanced

  function LeanOf(position: real): (l: Lean)
    ensures l == PositiveLean <==> position > 20.0
    ensures l == NegativeLean <==> position < -20.0
    ensures l == Balanced <==> -20.0 <= position <= 20.0
  {
    if position > 20.0 then PositiveLean else if position < -20.0 then NegativeLean else Balanced
  }

  function EconomicHeading(position: real): string {
    match LeanOf(position)
    case PositiveLean => "Right"
    case NegativeLean => "Left"
    case Balanced => "Centrist"
  }

  function SocialHeading(position: real): string {
    match LeanOf(position)
    case PositiveLean => "Authoritarian"
    case NegativeLean => "Libertarian"
    case Balanced => "Centrist"
  }

  /** Which of the five description sentences of an axis is shown. */
  datatype Stance = StrongPositive | MildPositive | StrongNegative | MildNegative | BalancedStance

  function StanceOf(position: real): Stance {
    if position > 50.0 then StrongPositive
    else if position > 20.0 then MildPositive
    else if position < -50.0 then StrongNegative
    else if position < -20.0 then MildNegative
    else BalancedStance
  }

  /** The description refines the heading: a strong or mild stance on one
      side goes with the heading of that side, the balanced sentence with the
      centrist heading. */
  lemma StanceRefinesLean(position: real)
    ensures StanceOf(position) in {StrongPositive, MildPositive} <==> LeanOf(position) == PositiveLean
    ensures StanceOf(position) in {StrongNegative, MildNegative} <==> LeanOf(position) == NegativeLean
    ensures StanceOf(position) == BalancedStance <==> LeanOf(position) == Balanced
    ensures StanceOf(position) == StrongPositive <==> position > 50.0
    ensures StanceOf(position) == StrongNegative <==> position < -50.0
  {
  }

  // Centrist analysis

  datatype CentristAnalysis = Passive | Radical | Mix

  /** Passive within 10 on both axes, radical within 20 on both but not
      within 10 on both, a mix otherwise. */
  function AnalyseCentrism(economic: real, social: real): (c: CentristAnalysis)
    ensures c == Passive <==> Classifier.Abs(economic) < 10.0 && Classifier.Abs(social) < 10.0
    ensures c == Radical <==> Classifier.Abs(economic) < 20.0 && Classifier.Abs(social) < 20.0
                              && !(Classifier.Abs(economic) < 10.0 && Classifier.Abs(social) < 10.0)
    ensures c == Mix <==> !(Classifier.Abs(economic) < 20.0 && Classifier.Abs(social) < 20.0)
  {
    if Classifier.Abs(economic) < 20.0 && Classifier.Abs(social) < 20.0 then
      if Classifier.Abs(economic) < 10.0 && Classifier.Abs(social) < 10.0 then Passive else Radical
    else Mix
  }

  /** The centrist analysis sees some centrism exactly where the ideology
      tree says "Centrist" or "True Neutral", and a passive centrism
      includes the origin. */
  lemma AnalysisAgreesWithIdeology(e: real, s: real)
    ensures AnalyseCentrism(e, s) != Mix <==>
              Classifier.IdeologyOf(e, s) in {Classifier.Centrist, Classifier.TrueNeutral}
    ensures Classifier.IdeologyOf(e, s) == Classifier.TrueNeutral ==> AnalyseCentrism(e, s) == Passive
  {
    Classifier.CentristIff(e, s);
    Classifier.TrueNeutralOnlyAtOrigin(e, s);
  }

  /** Where the analysis sees centrism, both headings say "Centrist". */
  lemma CentrismMeansCentristHeadings(e: real, s: real)
    ensures AnalyseCentrism(e, s) != Mix ==> EconomicHeading(e) == "Centrist" && SocialHeading(s) == "Centrist"
  {
  }
}

=== FILE: options.dfy ===
/** An optional value: absence is modelled explicitly rather than as null. */
module Options {
  datatype Option<+T> = None | Some(value: T)
}

=== FILE: persisted.dfy ===
/**
 The single result record the quiz writes to client storage under the key
 "politicalCompassResults" and the results page reads back. Storage and JSON
 are not modelled as text: the slot holds the record itself, or says it is
 missing or could not be parsed.
 */
module Persisted {
  import opened Options
  import opened Responses

  /** Axis positions in [-100, 100] and raw scores in [0, 100]. */
  datatype UserPosition = UserPosition(economic: real, social: real, economicScore: real, socialScore: real)

  /** The neutral position the results page falls back to. */
  const DefaultPosition := UserPosition(0.0, 0.0, 50.0, 50.0)

  /** The stored record; `responses` is `None` when the field is absent. */
  datatype StoredRecord = StoredRecord(position: UserPosition, responses: Option<ResponseMap>)

  /** What reading the storage key yields. An empty string is falsy and is
      treated like a missing key. */
  datatype Slot = Missing | Unparseable | Parsed(record: StoredRecord)

  /** Writing a record replaces whatever the slot held. */
  function Save(slot: Slot, record: StoredRecord): (slot': Slot)
    ensures slot'.Parsed? && slot'.record == record
  {
    Parsed(record)
  }
}

=== FILE: projection.dfy ===
/**
 The secondary "multi-dimensional" projection of the standalone quiz page: a
 jittered point built from two further question subsets, and the ranking of
 the reference archetypes by their distance to it. The two uniform random
 draws are parameters, so the projection is a function of the responses and
 the draws.
 */
module Projection {
  import opened Responses
  import Axis

  /** Questions read by the horizontal and the vertical coordinate. */
  const XBiasQuestions: seq<int> := [2, 3, 9, 12, 15, 21, 24, 26]
  const YBiasQuestions: seq<int> := [1, 4, 7, 10, 13, 19, 22, 28]

  /** Each bias is divided by 8 whatever the number of answered entries. */
  const BiasDivisor: real := 8.0

  /** Width of the uniform jitter added to each coordinate. */
  const RandomFactor: real := 15.0

  /** The deviation an entry contributes: its value less 50. Unlike the axis
      scores, the projection reads the stored value itself, so an answer of 0
      counts as -50; an unanswered question contributes nothing. */
  function Deviation(r: ResponseMap, q: int): real {
    if q in r then r[q] - Neutral else 0.0
  }

  /** Sum of the deviations over `qs`. */
  function DeviationSum(r: ResponseMap, qs: seq<int>): real
    decreases |qs|
  {
    if |qs| == 0 then 0.0 else Deviation(r, qs[0]) + DeviationSum(r, qs[1..])
  }

  function Bias(r: ResponseMap, qs: seq<int>): real {
    DeviationSum(r, qs) / BiasDivisor
  }

  /** How many times `q` occurs in `qs`. */
  function Occurrences(qs: seq<int>, q: int): nat
    decreases |qs|
  {
    if |qs| == 0 then 0 else (if qs[0] == q then 1 else 0) + Occurrences(qs[1..], q)
  }

  /** Setting one entry to `v` moves the sum, relative to leaving it
      unanswered, by `v - 50` for every occurrence of the entry in `qs`. */
  lemma {:induction false} DeviationSumSet(r: ResponseMap, q: int, v: real, qs: seq<int>)
    ensures DeviationSum(r[q := v], qs) == DeviationSum(r - {q}, qs) + Occurrences(qs, q) as real * (v - Neutral)
    decreases |qs|
  {
    if |qs| > 0 {
      DeviationSumSet(r, q, v, qs[1..]);
    }
  }

  /** For the projection an unanswered question is the same as a neutral
      answer. */
  lemma UnansweredIsNeutral(r: ResponseMap, q: int, qs: seq<int>)
    ensures DeviationSum(r - {q}, qs) == DeviationSum(r[q := Neutral], qs)
  {
    DeviationSumSet(r, q, Neutral, qs);
  }

  /** No question occurs twice in `qs`. */
  predicate Distinct(qs: seq<int>) {
    forall i, j :: 0 <= i < j < |qs| ==> qs[i] != qs[j]
  }

  lemma {:induction false} OccursOnce(qs: seq<int>, q: int)
    requires Distinct(qs) && q in qs
    ensures Occurrences(qs, q) == 1
    decreases |qs|
  {
    if qs[0] == q {
      OccursNever(qs[1..], q);
    } else {
      OccursOnce(qs[1..], q);
    }
  }

  lemma {:induction false} OccursNever(qs: seq<int>, q: int)
    requires q !in qs
    ensures Occurrences(qs, q) == 0
    decreases |qs|
  {
    if |qs| > 0 {
      OccursNever(qs[1..], q);
    }
  }

  /** Neither subset lists a question twice. */
  lemma SubsetsDistinct()
    ensures Distinct(XBiasQuestions) && Distinct(YBiasQuestions)
  {
  }

  /** An answer of 0 to a question listed once in a subset (as every question
      of both subsets is) pulls that bias 6.25 below what leaving it
      unanswered gives, although the axis scores read that answer as 50
      (`Axis.ZeroReadsAsNeutral`). */
  lemma ZeroAnswerPullsBias(r: ResponseMap, q: int, qs: seq<int>)
    requires Distinct(qs) && q in qs
    ensures Bias(r[q := 0.0], qs) == Bias(r - {q}, qs) - 6.25
  {
    OccursOnce(qs, q);
    DeviationSumSet(r, q, 0.0, qs);
  }

  /** Where no stored value is 0, each deviation is the value the axis score
      reads less 50, so the deviation sum is the scored sum less 50 per
      listed question. */
  lemma {:induction false} DeviationAgreesWithScoredSum(r: ResponseMap, qs: seq<int>)
    requires forall q :: q in r ==> r[q] != 0.0
    ensures DeviationSum(r, qs) == Axis.ScoredSum(r, qs) - Neutral * |qs| as real
    decreases |qs|
  {
    if |qs| > 0 {
      DeviationAgreesWithScoredSum(r, qs[1..]);
    }
  }

  /** With every value in the slider range, each deviation lies in
      [-50, 50], and so does the sum per listed question. */
  lemma {:induction false} DeviationSumBounds(r: ResponseMap, qs: seq<int>)
    requires AllInRange(r)
    ensures -Neutral * |qs| as real <= DeviationSum(r, qs) <= Neutral * |qs| as real
    decreases |qs|
  {
    if |qs| > 0 {
      DeviationSumBounds(r, qs[1..]);
      var q := qs[0];
      if q in r {
        assert InRange(r[q]);
      }
    }
  }

  /** Both biases lie in [-50, 50]. */
  lemma BiasBounds(r: ResponseMap)
    requires AllInRange(r)
    ensures -50.0 <= Bias(r, XBiasQuestions) <= 50.0
    ensures -50.0 <= Bias(r, YBiasQuestions) <= 50.0
  {
    DeviationSumBounds(r, XBiasQuestions);
    DeviationSumBounds(r, YBiasQuestions);
  }

  /** A uniform draw `u` in [0, 1) turned into a jitter in [-7.5, 7.5). */
  function Jitter(u: real): (j: real)
    requires 0.0 <= u < 1.0
    ensures -RandomFactor / 2.0 <= j < RandomFactor / 2.0
    ensures (j + RandomFactor / 2.0) / RandomFactor == u
  {
    u * RandomFactor - RandomFactor / 2.0
  }

  /** The projected point for the draws `rx` and `ry`: each coordinate is its
      bias plus a jitter, within 7.5 of the bias, and the draw is recovered
      from the offset to the bias. */
  function MdsPosition(r: ResponseMap, rx: real, ry: real): (p: (real, real))
    requires 0.0 <= rx < 1.0 && 0.0 <= ry < 1.0
    ensures Bias(r, XBiasQuestions) - 7.5 <= p.0 < Bias(r, XBiasQuestions) + 7.5
    ensures Bias(r, YBiasQuestions) - 7.5 <= p.1 < Bias(r, YBiasQuestions) + 7.5
    ensures (p.0 - Bias(r, XBiasQuestions) + 7.5) / 15.0 == rx
    ensures (p.1 - Bias(r, YBiasQuestions) + 7.5) / 15.0 == ry
  {
    (Bias(r, XBiasQuestions) + Jitter(rx), Bias(r, YBiasQuestions) + Jitter(ry))
  }

  /** With every value in the slider range the projected point lies in
      [-57.5, 57.5) on both coordinates. */
  lemma MdsPositionBounds(r: ResponseMap, rx: real, ry: real)
    requires AllInRange(r)
    requires 0.0 <= rx < 1.0 && 0.0 <= ry < 1.0
    ensures var p := MdsPosition(r, rx, ry);
            -57.5 <= p.0 < 57.5 && -57.5 <= p.1 < 57.5
  {
    BiasBounds(r);
  }

  /** With nothing answered the point is the jitter alone. */
  lemma MdsPositionNoAnswers(rx: real, ry: real)
    requires 0.0 <= rx < 1.0 && 0.0 <= ry < 1.0
    ensures MdsPosition(map[], rx, ry) == (Jitter(rx), Jitter(ry))
  {
    assert DeviationSum(map[], XBiasQuestions) == 0.0 by {
      DeviationSumZero(XBiasQuestions);
    }
    assert DeviationSum(map[], YBiasQuestions) == 0.0 by {
      DeviationSumZero(YBiasQuestions);
    }
  }

  lemma {:induction false} DeviationSumZero(qs: seq<int>)
    ensures DeviationSum(map[], qs) == 0.0
    decreases |qs|
  {
    if |qs| > 0 {
      DeviationSumZero(qs[1..]);
    }
  }

  // Archetype ranking

  /** A reference point of the projection. */
  datatype Archetype = Archetype(id: int, name: string, x: real, y: real)

  const Catalog: seq<Archetype> := [
    Archetype(1, "Liberal", -80.0, -60.0),
    Archetype(2, "Conservative", 70.0, 50.0),
    Archetype(3, "Libertarian", 60.0, -70.0),
    Archetype(4, "Authoritarian", -40.0, 80.0),
    Archetype(5, "Centrist", 0.0, 0.0),
    Archetype(6, "Progressive", -60.0, -30.0),
    Archetype(7, "Traditional", 40.0, 30.0),
    Archetype(8, "Radical Centrist", 10.0, -5.0),
    Archetype(9, "Nationalist", 30.0, 60.0),
    Archetype(10, "Globalist", -50.0, -20.0)
  ]

  /** An archetype with its distance to the projected point. The distance is
      kept squared: the square root is strictly increasing on non-negative
      numbers, so it orders and ties the archetypes exactly as the Euclidean
      distance does. */
  datatype Ranked = Ranked(archetype: Archetype, distance: real)

  function SquaredDistance(a: Archetype, p: (real, real)): (d: real)
    ensures d >= 0.0
  {
    var dx, dy := a.x - p.0, a.y - p.1;
    SquareFacts(dx);
    SquareFacts(dy);
    dx * dx + dy * dy
  }

  lemma SquareFacts(d: real)
    ensures d * d >= 0.0
  {
    if d < 0.0 {
      assert d * d == (-d) * (-d);
    }
  }

  function Distances(cs: seq<Archetype>, p: (real, real)): (ds: seq<Ranked>)
    ensures |ds| == |cs|
    ensures forall i :: 0 <= i < |cs| ==> ds[i] == Ranked(cs[i], SquaredDistance(cs[i], p))
  {
    seq(|cs|, i requires 0 <= i < |cs| => Ranked(cs[i], SquaredDistance(cs[i], p)))
  }

  /** The order of the ranking: nearer first, and among equally near
      archetypes the one earlier in the catalog (smaller id) first. */
  predicate Before(a: Ranked, b: Ranked) {
    a.distance < b.distance || (a.distance == b.distance && a.archetype.id < b.archetype.id)
  }

  predicate Ranks(s: seq<Ranked>) {
    forall i, j :: 0 <= i < j < |s| ==> Before(s[i], s[j])
  }

  predicate IdsIncreasing(s: seq<Ranked>) {
    forall i, j :: 0 <= i < j < |s| ==> s[i].archetype.id < s[j].archetype.id
  }

  /** Inserting into a ranked sequence: `x` goes before the first entry at
      least as far away, so it precedes entries it ties with. */
  function Insert(x: Ranked, s: seq<Ranked>): (t: seq<Ranked>)
    ensures multiset(t) == multiset(s) + multiset{x}
    ensures |t| == |s| + 1
    decreases |s|
  {
    if |s| == 0 then [x]
    else if x.distance <= s[0].distance then [x] + s
    else
      assert s == [s[0]] + s[1..];
      [s[0]] + Insert(x, s[1..])
  }

  /** Inserting an entry whose id is below every id of a ranked sequence
      keeps it ranked. */
  lemma {:induction false} InsertRanks(x: Ranked, s: seq<Ranked>)
    requires Ranks(s)
    requires forall y :: y in s ==> x.archetype.id < y.archetype.id
    ensures Ranks(Insert(x, s))
    decreases |s|
  {
    if |s| > 0 && x.distance > s[0].distance {
      var rest := Insert(x, s[1..]);
      InsertRanks(x, s[1..]);
      assert s == [s[0]] + s[1..];
      forall k | 0 <= k < |rest| ensures Before(s[0], rest[k]) {
        assert rest[k] in multiset(s[1..]) + multiset{x};
        if rest[k] != x {
          assert rest[k] in s[1..];
          var j :| 0 <= j < |s[1..]| && s[1..][j] == rest[k];
          assert s[j + 1] == rest[k];
        }
      }
      assert Insert(x, s) == [s[0]] + rest;
    }
  }

  /** The stable sort of the ranking: the same entries, ordered by distance,
      ties in input order. */
  function Sort(s: seq<Ranked>): (t: seq<Ranked>)
    ensures multiset(t) == multiset(s)
    ensures |t| == |s|
    decreases |s|
  {
    if |s| == 0 then []
    else
      assert s == [s[0]] + s[1..];
      Insert(s[0], Sort(s[1..]))
  }

  /** Sorting entries whose ids increase (as the catalog's do) ranks them. */
  lemma {:induction false} SortRanks(s: seq<Ranked>)
    requires IdsIncreasing(s)
    ensures Ranks(Sort(s))
    decreases |s|
  {
    if |s| > 0 {
      var rest := Sort(s[1..]);
      SortRanks(s[1..]);
      forall y | y in rest ensures s[0].archetype.id < y.archetype.id {
        assert y in multiset(s[1..]);
        var j :| 0 <= j < |s[1..]| && s[1..][j] == y;
        assert s[j + 1] == y;
      }
      InsertRanks(s[0], rest);
    }
  }

  /** The archetypes ranked by distance to the projected point. */
  function Ranking(p: (real, real)): (t: seq<Ranked>)
    ensures |t| == |Catalog|
    ensures Ranks(t)
    ensures multiset(t) == multiset(Distances(Catalog, p))
  {
    var ds := Distances(Catalog, p);
    assert IdsIncreasing(ds) by {
      assert forall i :: 0 <= i < |Catalog| ==> Catalog[i].id == i + 1;
    }
    SortRanks(ds);
    Sort(ds)
  }
  /** The two archetypes named in the narrative: the nearest one, and the
      nearest among the rest; among equally near archetypes the one earlier
      in the catalog is named. */
  function Nearest(p: (real, real)): (n: (Archetype, Archetype))
    ensures n.0 != n.1
    ensures n.0 in Catalog && n.1 in Catalog
    ensures forall a :: a in Catalog ==> SquaredDistance(n.0, p) <= SquaredDistance(a, p)
    ensures forall a :: a in Catalog && a != n.0 ==> SquaredDistance(n.1, p) <= SquaredDistance(a, p)
    ensures forall a :: a in Catalog && SquaredDistance(a, p) == SquaredDistance(n.0, p) ==> n.0.id <= a.id
    ensures forall a :: a in Catalog && a != n.0 && SquaredDistance(a, p) == SquaredDistance(n.1, p) ==> n.1.id <= a.id
  {
    var t := Ranking(p);
    NearestFacts(p, t);
    (t[0].archetype, t[1].archetype)
  }

  /** When two archetypes are equally near and every other one is farther,
      the one earlier in the catalog is named first and the other second. */
  lemma NearestTwoWayTie(p: (real, real), a: Archetype, b: Archetype)
    requires a in Catalog && b in Catalog && a.id < b.id
    requires SquaredDistance(a, p) == SquaredDistance(b, p)
    requires forall c :: c in Catalog && c != a && c != b ==> SquaredDistance(a, p) < SquaredDistance(c, p)
    ensures Nearest(p) == (a, b)
  {
  }

  /** At (5, -2.5) "Centrist" (id 5) and "Radical Centrist" (id 8) are both at
      squared distance 31.25 and every other archetype is farther, so by
      `NearestTwoWayTie` the narrative names "Centrist" first. */
  lemma TiePointPremises(p: (real, real), c: Archetype)
    requires p == (5.0, -2.5)
    requires c in Catalog
    ensures SquaredDistance(Catalog[4], p) == SquaredDistance(Catalog[7], p) == 31.25
    ensures Catalog[4].id < Catalog[7].id
    ensures c != Catalog[4] && c != Catalog[7] ==> SquaredDistance(c, p) > 31.25
  {
  }

  lemma NearestFacts(p: (real, real), t: seq<Ranked>)
    requires |t| == |Catalog| && Ranks(t)
    requires multiset(t) == multiset(Distances(Catalog, p))
    ensures t[0].archetype != t[1].archetype
    ensures t[0].archetype in Catalog && t[1].archetype in Catalog
    ensures forall a :: a in Catalog ==> SquaredDistance(t[0].archetype, p) <= SquaredDistance(a, p)
    ensures forall a :: a in Catalog && a != t[0].archetype ==> SquaredDistance(t[1].archetype, p) <= SquaredDistance(a, p)
    ensures forall a :: a in Catalog && SquaredDistance(a, p) == SquaredDistance(t[0].archetype, p) ==>
              t[0].archetype.id <= a.id
    ensures forall a :: a in Catalog && a != t[0].archetype && SquaredDistance(a, p) == SquaredDistance(t[1].archetype, p) ==>
              t[1].archetype.id <= a.id
  {
    var ds := Distances(Catalog, p);
    forall k | 0 <= k < |t|
      ensures t[k].archetype in Catalog && t[k].distance == SquaredDistance(t[k].archetype, p)
    {
      assert t[k] in multiset(ds);
      var i :| 0 <= i < |ds| && ds[i] == t[k];
    }
    assert Before(t[0], t[1]);
    forall a | a in Catalog
      ensures SquaredDistance(t[0].archetype, p) <= SquaredDistance(a, p)
      ensures a != t[0].archetype ==> SquaredDistance(t[1].archetype, p) <= SquaredDistance(a, p)
      ensures SquaredDistance(a, p) == SquaredDistance(t[0].archetype, p) ==> t[0].archetype.id <= a.id
      ensures a != t[0].archetype && SquaredDistance(a, p) == SquaredDistance(t[1].archetype, p) ==>
                t[1].archetype.id <= a.id
    {
      var i :| 0 <= i < |Catalog| && Catalog[i] == a;
      assert ds[i] in multiset(t);
      var k :| 0 <= k < |t| && t[k] == ds[i];
      if k > 0 {
        assert Before(t[0], t[k]);
      }
      if k > 1 {
        assert Before(t[1], t[k]);
      }
    }
  }
}

=== FILE: quiz_page.dfy ===
/**
 The standalone quiz page: answering, the gated "See Results" button, which
 computes the projected point and switches to the summary, the summary's axis
 positions, headings and centrist analysis (read from the raw responses,
 without completion), and "Retake Test". The footer's cursor rules are those
 of `TestFlow`.
 */
module QuizPage {
  import opened Responses
  import Axis
  import Classifier
  import Labels
  import Slider
  import Projection
  import TestFlow

  /** The page state: cursor, responses, whether the summary is shown, and
      the projected point (initially the origin). */
  datatype Page = Page(cursor: int, responses: ResponseMap, submitted: bool, mds: (real, real))

  const InitialPage := Page(0, map[], false, (0.0, 0.0))

  /** "See Results" is enabled once at least half the questions (15 of 30)
      have an entry. */
  predicate SubmitEnabled(r: ResponseMap) {
    !((AnsweredCount(r) as real) < (QuestionCount as real) / 2.0)
  }

  lemma SubmitEnabledIff(r: ResponseMap)
    ensures SubmitEnabled(r) <==> AnsweredCount(r) >= 15
  {
  }

  /** Answering question `q`; nothing but the responses changes. */
  function Answer(page: Page, q: int, v: real): (p: Page)
    ensures p.responses.Keys == page.responses.Keys + {q}
    ensures p.responses[q] == v
    ensures forall k :: k in page.responses && k != q ==> p.responses[k] == page.responses[k]
    ensures p.cursor == page.cursor && p.submitted == page.submitted && p.mds == page.mds
  {
    page.(responses := Record(page.responses, q, v))
  }

  /** Answering never disables "See Results". */
  lemma AnswerKeepsSubmitEnabled(page: Page, q: int, v: real)
    requires SubmitEnabled(page.responses)
    ensures SubmitEnabled(Answer(page, q, v).responses)
  {
    var before := page.responses.Keys;
    var after := Answer(page, q, v).responses.Keys;
    assert after == before + {q};
    if q !in before {
      assert |after| == |before| + 1;
    } else {
      assert after == before;
    }
  }

  /** Clicking "See Results" with the uniform draws `rx` and `ry`. The button
      exists only in the quiz view (not once the summary is shown), on the
      last question, and reacts only while enabled; then the projected point
      is computed from the responses and the summary is shown. */
  function SeeResults(page: Page, rx: real, ry: real): (p: Page)
    requires 0.0 <= rx < 1.0 && 0.0 <= ry < 1.0
    ensures !page.submitted && TestFlow.SubmitShown(page.cursor) && SubmitEnabled(page.responses) ==>
              p.submitted && p.responses == page.responses && p.cursor == page.cursor
              && p.mds == Projection.MdsPosition(page.responses, rx, ry)
    ensures !(!page.submitted && TestFlow.SubmitShown(page.cursor) && SubmitEnabled(page.responses)) ==> p == page
  {
    if !page.submitted && TestFlow.SubmitShown(page.cursor) && SubmitEnabled(page.responses) then
      page.(submitted := true, mds := Projection.MdsPosition(page.responses, rx, ry))
    else page
  }

  /** The summary is never reached from the quiz with fewer than 15 entries. */
  lemma SummaryNeedsHalfAnswered(page: Page, rx: real, ry: real)
    requires !page.submitted
    requires 0.0 <= rx < 1.0 && 0.0 <= ry < 1.0
    requires SeeResults(page, rx, ry).submitted
    ensures AnsweredCount(page.responses) >= 15
    ensures page.cursor == QuestionCount - 1
  {
  }

  /** "Retake Test": empty responses, cursor back to the first question,
      summary hidden; the projected point is left as it was. */
  function Retake(page: Page): (p: Page)
    ensures p == InitialPage.(mds := page.mds)
  {
    page.(responses := map[], cursor := 0, submitted := false)
  }

  /** After a retake the quiz starts over: "See Results" is disabled, every
      slider shows "Neutral", and the axis positions read from the empty
      response set are the origin, a passive centrism. */
  lemma RetakeStartsOver(page: Page, q: int)
    ensures !SubmitEnabled(Retake(page).responses)
    ensures Labels.ResponseLabel(DisplayedValue(Retake(page).responses, q)) == Labels.NeutralLabel
    ensures Axis.ComputeAxes(Retake(page).responses) == Axis.AxisScores(Neutral, Neutral, 0.0, 0.0)
    ensures Labels.AnalyseCentrism(Axis.ComputeAxes(Retake(page).responses).economic,
                                   Axis.ComputeAxes(Retake(page).responses).social) == Labels.Passive
  {
    Axis.NoAnswersIsNeutral();
  }

  /** The value a slider shows and labels, `responses[index] || 50`. */
  function DisplayedValue(r: ResponseMap, q: int): (v: real)
    ensures q in r && r[q] != 0.0 ==> v == r[q]
    ensures q !in r || r[q] == 0.0 ==> v == Neutral
  {
    ScoredValue(r, q)
  }

  /** A recorded 0 is shown as 50: the label says "Neutral" and the track is
      neutral, while the stored entry still counts toward "See Results". */
  lemma ZeroDisplaysNeutral(r: ResponseMap, q: int)
    ensures Labels.ResponseLabel(DisplayedValue(r[q := 0.0], q)) == Labels.NeutralLabel
    ensures Slider.GradientStyle(DisplayedValue(r[q := 0.0], q)).NeutralTrack?
    ensures q in r[q := 0.0]
  {
  }

  /** Any other answer in the slider range is shown as given. */
  lemma AnswerDisplayed(r: ResponseMap, q: int, v: real)
    requires 0.0 < v <= 100.0
    ensures DisplayedValue(Record(r, q, v), q) == v
    ensures Labels.ResponseLabel(DisplayedValue(Record(r, q, v), q)) == Labels.ResponseLabel(v)
  {
  }

  /** The summary reads the raw responses, the component page scores the
      completed set; both place the respondent at the same position. */
  lemma SummaryAgreesWithStoredRecord(r: ResponseMap)
    ensures Axis.ComputeAxes(r).economic == TestFlow.SubmitRecord(r).position.economic
    ensures Axis.ComputeAxes(r).social == TestFlow.SubmitRecord(r).position.social
  {
  }

  /** The summary's two headings and the centrist analysis. */
  datatype Summary = Summary(economicHeading: string, socialHeading: string,
                             economicStance: Labels.Stance, socialStance: Labels.Stance,
                             centrism: Labels.CentristAnalysis)

  /** The summary for the axis positions, as the page computes them from
      `Axis.ComputeAxes` of the raw responses. The headings turn at 20 either
      way, the strong sentences at 50, the centrist analysis at 20 and 10;
      each description sentence belongs to its heading, and some centrism is
      seen only where both headings say "Centrist". */
  function SummaryOf(economic: real, social: real): (s: Summary)
    ensures s.economicHeading == "Right" <==> economic > 20.0
    ensures s.economicHeading == "Left" <==> economic < -20.0
    ensures s.socialHeading == "Authoritarian" <==> social > 20.0
    ensures s.socialHeading == "Libertarian" <==> social < -20.0
    ensures s.economicStance == Labels.StrongPositive <==> economic > 50.0
    ensures s.economicStance == Labels.StrongNegative <==> economic < -50.0
    ensures s.socialStance == Labels.StrongPositive <==> social > 50.0
    ensures s.socialStance == Labels.StrongNegative <==> social < -50.0
    ensures s.centrism != Labels.Mix <==> Classifier.Abs(economic) < 20.0 && Classifier.Abs(social) < 20.0
    ensures s.centrism == Labels.Passive <==> Classifier.Abs(economic) < 10.0 && Classifier.Abs(social) < 10.0
    ensures s.economicHeading == "Centrist" <==> s.economicStance == Labels.BalancedStance
    ensures s.socialHeading == "Centrist" <==> s.socialStance == Labels.BalancedStance
    ensures s.centrism != Labels.Mix ==> s.economicHeading == "Centrist" && s.socialHeading == "Centrist"
  {
    Labels.CentrismMeansCentristHeadings(economic, social);
    Labels.StanceRefinesLean(economic);
    Labels.StanceRefinesLean(social);
    Summary(Labels.EconomicHeading(economic), Labels.SocialHeading(social),
            Labels.StanceOf(economic), Labels.StanceOf(social),
            Labels.AnalyseCentrism(economic, social))
  }
}

=== FILE: responses.dfy ===
/**
 The response set of one quiz session: a sparse map from question index to the
 slider value given for it, the operation that records an answer, and the
 completion step that fills every unanswered question with the neutral value.
 */
module Responses {

  /** Number of statements in either quiz variant. */
  const QuestionCount: nat := 30

  /** The slider value meaning "no opinion". */
  const Neutral: real := 50.0

  /** Question index to slider value; keys need not cover every question. */
  type ResponseMap = map<int, real>

  predicate IsQuestion(q: int) {
    0 <= q < QuestionCount
  }

  /** The integers 0 .. n-1. */
  function IndicesBelow(n: nat): (s: set<int>)
    ensures forall q :: q in s <==> 0 <= q < n
  {
    if n == 0 then {} else IndicesBelow(n - 1) + {n - 1}
  }

  /** Every question index of the quiz. */
  function QuestionIndices(): (s: set<int>)
    ensures forall q :: q in s <==> IsQuestion(q)
  {
    IndicesBelow(QuestionCount)
  }

  /** A slider value the widget can produce. */
  predicate InRange(v: real) {
    0.0 <= v <= 100.0
  }

  predicate AllInRange(r: ResponseMap) {
    forall q :: q in r ==> InRange(r[q])
  }

  /** Only question indices appear as keys (the widget only records those). */
  predicate KeysAreQuestions(r: ResponseMap) {
    forall q :: q in r ==> IsQuestion(q)
  }

  /** Every recorded value is exactly the neutral value. */
  predicate AllNeutral(r: ResponseMap) {
    forall q :: q in r ==> r[q] == Neutral
  }

  /** Answering question `q` with `v`: a later answer replaces an earlier one,
      and no other entry is touched. */
  function Record(r: ResponseMap, q: int, v: real): (r': ResponseMap)
    ensures r'.Keys == r.Keys + {q}
    ensures r'[q] == v
    ensures forall k :: k in r && k != q ==> r'[k] == r[k]
  {
    r[q := v]
  }

  /** One answer event: question index and slider value. */
  datatype Answer = Answer(question: int, value: real)

  /** The response map after a session's answer events, in order. */
  function RecordAll(r: ResponseMap, events: seq<Answer>): ResponseMap
    decreases |events|
  {
    if |events| == 0 then r
    else RecordAll(Record(r, events[0].question, events[0].value), events[1..])
  }

  predicate ValidAnswer(a: Answer) {
    IsQuestion(a.question) && InRange(a.value)
  }

  /** A session of valid answer events keeps the map within the slider range
      and its keys within the question indices. */
  lemma {:induction false} RecordAllKeepsInvariant(r: ResponseMap, events: seq<Answer>)
    requires AllInRange(r) && KeysAreQuestions(r)
    requires forall i :: 0 <= i < |events| ==> ValidAnswer(events[i])
    ensures AllInRange(RecordAll(r, events))
    ensures KeysAreQuestions(RecordAll(r, events))
    decreases |events|
  {
    if |events| > 0 {
      var r' := Record(r, events[0].question, events[0].value);
      assert ValidAnswer(events[0]);
      assert forall i :: 0 <= i < |events[1..]| ==> ValidAnswer(events[1..][i]) by {
        forall i | 0 <= i < |events[1..]| ensures ValidAnswer(events[1..][i]) {
          assert events[1..][i] == events[i + 1];
        }
      }
      RecordAllKeepsInvariant(r', events[1..]);
    }
  }

  /** Every question answered at some point of a session is present afterwards
      with the value of its LAST answer event. */
  lemma {:induction false} RecordAllLastAnswerWins(r: ResponseMap, events: seq<Answer>, i: int)
    requires 0 <= i < |events|
    requires forall j :: i < j < |events| ==> events[j].question != events[i].question
    ensures events[i].question in RecordAll(r, events)
    ensures RecordAll(r, events)[events[i].question] == events[i].value
    decreases |events|
  {
    var r' := Record(r, events[0].question, events[0].value);
    if i == 0 {
      RecordAllUntouched(r', events[1..], events[0].question);
    } else {
      assert events[1..][i - 1] == events[i];
      forall j | i - 1 < j < |events[1..]|
        ensures events[1..][j].question != events[1..][i - 1].question
      {
        assert events[1..][j] == events[j + 1];
      }
      RecordAllLastAnswerWins(r', events[1..], i - 1);
    }
  }

  /** A question no event mentions keeps its entry (or its absence). */
  lemma {:induction false} RecordAllUntouched(r: ResponseMap, events: seq<Answer>, q: int)
    requires forall j :: 0 <= j < |events| ==> events[j].question != q
    ensures q in RecordAll(r, events) <==> q in r
    ensures q in r ==> RecordAll(r, events)[q] == r[q]
    decreases |events|
  {
    if |events| > 0 {
      assert events[0].question != q;
      forall j | 0 <= j < |events[1..]| ensures events[1..][j].question != q {
        assert events[1..][j] == events[j + 1];
      }
      RecordAllUntouched(Record(r, events[0].question, events[0].value), events[1..], q);
    }
  }

  /** Submission-time completion: every question index gets an entry, recorded
      answers are kept as they are, and unanswered questions become neutral. */
  function Complete(r: ResponseMap): (c: ResponseMap)
    ensures c.Keys == r.Keys + QuestionIndices()
    ensures forall q :: q in r ==> c[q] == r[q]
    ensures forall q :: IsQuestion(q) && q !in r ==> c[q] == Neutral
  {
    map q | q in r.Keys + QuestionIndices() :: if q in r then r[q] else Neutral
  }

  /** Completing an already completed set changes nothing. */
  lemma CompleteIdempotent(r: ResponseMap)
    ensures Complete(Complete(r)) == Complete(r)
  {
    var c := Complete(r);
    assert Complete(c).Keys == c.Keys;
    forall q | q in c ensures Complete(c)[q] == c[q] {
    }
  }

  /** Completion keeps the slider range, since the filler is neutral. */
  lemma CompleteKeepsRange(r: ResponseMap)
    requires AllInRange(r)
    ensures AllInRange(Complete(r))
  {
  }

  /** The completed set is all-neutral exactly when every recorded answer is. */
  lemma CompleteAllNeutral(r: ResponseMap)
    ensures AllNeutral(Complete(r)) <==> AllNeutral(r)
  {
    var c := Complete(r);
    if AllNeutral(r) {
      forall q | q in c ensures c[q] == Neutral {
        if q !in r {
          assert IsQuestion(q);
        }
      }
    }
  }

  /** The value a score reads for question `q`: the page's `responses[q] || 50`.
      A missing entry and a recorded 0 are both falsy, so both read as 50. */
  function ScoredValue(r: ResponseMap, q: int): (v: real)
    ensures q in r && r[q] != 0.0 ==> v == r[q]
    ensures q !in r || r[q] == 0.0 ==> v == Neutral
  {
    if q in r && r[q] != 0.0 then r[q] else Neutral
  }

  /** Scores read the same value from a set before and after completion. */
  lemma ScoredValueAfterComplete(r: ResponseMap, q: int)
    requires IsQuestion(q)
    ensures ScoredValue(Complete(r), q) == ScoredValue(r, q)
  {
  }

  lemma {:induction false} IndicesBelowCard(n: nat)
    ensures |IndicesBelow(n)| == n
  {
    if n > 0 {
      IndicesBelowCard(n - 1);
    }
  }

  /** Number of distinct questions answered so far. */
  function AnsweredCount(r: ResponseMap): nat {
    |r.Keys|
  }

  /** Questions that will be treated as neutral on submission. */
  function NeutralCount(r: ResponseMap): int {
    QuestionCount - AnsweredCount(r)
  }

  /** Removing the keys of a map whose keys are all below `n` from 0 .. n-1
      leaves n minus the number of keys. */
  lemma UnansweredCard(r: ResponseMap, n: nat)
    requires forall q :: q in r ==> 0 <= q < n
    ensures |IndicesBelow(n) - r.Keys| == n - |r.Keys|
  {
    IndicesBelowCard(n);
    assert r.Keys <= IndicesBelow(n);
    assert IndicesBelow(n) == (IndicesBelow(n) - r.Keys) + r.Keys;
  }

  /** The neutral count is never negative and is exactly the number of
      question indices with no recorded answer. */
  lemma NeutralCountIsUnanswered(r: ResponseMap)
    requires KeysAreQuestions(r)
    ensures NeutralCount(r) == |QuestionIndices() - r.Keys|
    ensures NeutralCount(r) >= 0
  {
    UnansweredCard(r, QuestionCount);
    assert QuestionIndices() == IndicesBelow(QuestionCount);
  }
}

=== FILE: results.dfy ===
/**
 The results page: loading the stored record with its neutral fallback, the
 "neutral result" flag, the headline classification, and the zoom control.
 */
module Results {
  import opened Options
  import opened Responses
  import opened Persisted
  import Classifier

  /** What the page shows after loading: a position and the neutral flag. */
  datatype Loaded = Loaded(position: UserPosition, neutral: bool)

  /** A missing or unparseable record gives the default position flagged
      neutral. A parsed record is shown as stored, flagged neutral exactly
      when every stored response equals 50, which holds vacuously when the
      responses field is absent. */
  function LoadResults(slot: Slot): (l: Loaded)
    ensures !slot.Parsed? ==> l == Loaded(DefaultPosition, true)
    ensures slot.Parsed? ==> l.position == slot.record.position
    ensures slot.Parsed? && slot.record.responses.None? ==> l.neutral
    ensures slot.Parsed? && slot.record.responses.Some? ==>
              (l.neutral <==> forall q :: q in slot.record.responses.value ==> slot.record.responses.value[q] == Neutral)
  {
    match slot
    case Missing => Loaded(DefaultPosition, true)
    case Unparseable => Loaded(DefaultPosition, true)
    case Parsed(record) =>
      var responses := match record.responses case Some(r) => r case None => map[];
      Loaded(record.position, AllNeutral(responses))
  }

  /** Reading back a record just written reproduces its position. */
  lemma SaveLoadRoundTrip(slot: Slot, record: StoredRecord)
    ensures LoadResults(Save(slot, record)).position == record.position
  {
  }

  /** The default position classifies as the origin does. */
  lemma DefaultIsTrueNeutral()
    ensures Classifier.IdeologyOf(DefaultPosition.economic, DefaultPosition.social) == Classifier.TrueNeutral
    ensures Classifier.QuadrantOf(DefaultPosition.economic, DefaultPosition.social) == Classifier.AuthoritarianRight
  {
  }

  /** The headline of the results page: quadrant and ideology of the loaded
      position. */
  function Headline(l: Loaded): (Classifier.Quadrant, Classifier.Ideology) {
    (Classifier.QuadrantOf(l.position.economic, l.position.social),
     Classifier.IdeologyOf(l.position.economic, l.position.social))
  }

  /** Per-axis direction word under each score. */
  datatype Direction = Negative | Positive | Center

  function DirectionOf(position: real): (d: Direction)
    ensures d == Center <==> position == 0.0
    ensures d == Negative <==> position < 0.0
  {
    if position < 0.0 then Negative else if position > 0.0 then Positive else Center
  }

  /** Word shown under the economic score. */
  function EconomicDirectionName(d: Direction): string {
    match d
    case Negative => "Left"
    case Positive => "Right"
    case Center => "Center"
  }

  /** Word shown under the social score. */
  function SocialDirectionName(d: Direction): string {
    match d
    case Negative => "Libertarian"
    case Positive => "Authoritarian"
    case Center => "Center"
  }

  // Zoom control

  const InitialZoom: real := 1.0
  const ZoomStep: real := 0.25
  const MaxZoom: real := 2.0
  const MinZoom: real := 0.5

  /** The zoom levels reachable from the initial level. */
  predicate ValidZoom(z: real) {
    z == 0.5 || z == 0.75 || z == 1.0 || z == 1.25 || z == 1.5 || z == 1.75 || z == 2.0
  }

  /** The zoom buttons are disabled exactly at the bounds. */
  predicate ZoomInDisabled(z: real) { z >= MaxZoom }
  predicate ZoomOutDisabled(z: real) { z <= MinZoom }

  /** Zoom in by one step unless the button is disabled, which leaves the
      level unchanged. */
  function ZoomIn(z: real): (z': real)
    ensures ValidZoom(z) ==> ValidZoom(z')
    ensures ZoomInDisabled(z) ==> z' == z
    ensures !ZoomInDisabled(z) ==> z' == z + ZoomStep
  {
    if z < MaxZoom then z + ZoomStep else z
  }

  /** Zoom out by one step unless the button is disabled. */
  function ZoomOut(z: real): (z': real)
    ensures ValidZoom(z) ==> ValidZoom(z')
    ensures ZoomOutDisabled(z) ==> z' == z
    ensures !ZoomOutDisabled(z) ==> z' == z - ZoomStep
  {
    if z > MinZoom then z - ZoomStep else z
  }

  /** Between the bounds, one click in and one click out cancel. */
  lemma ZoomInOutCancel(z: real)
    requires ValidZoom(z)
    ensures !ZoomInDisabled(z) ==> ZoomOut(ZoomIn(z)) == z
    ensures !ZoomOutDisabled(z) ==> ZoomIn(ZoomOut(z)) == z
  {
  }

  datatype ZoomAction = In | Out

  function ApplyZoom(z: real, actions: seq<ZoomAction>): real
    decreases |actions|
  {
    if |actions| == 0 then z
    else ApplyZoom(if actions[0] == In then ZoomIn(z) else ZoomOut(z), actions[1..])
  }

  /** Any sequence of zoom clicks from the initial level keeps the level
      within [0.5, 2]. */
  lemma {:induction false} ZoomStaysInBounds(z: real, actions: seq<ZoomAction>)
    requires ValidZoom(z)
    ensures ValidZoom(ApplyZoom(z, actions))
    ensures MinZoom <= ApplyZoom(z, actions) <= MaxZoom
    decreases |actions|
  {
    if |actions| > 0 {
      ZoomStaysInBounds(if actions[0] == In then ZoomIn(z) else ZoomOut(z), actions[1..]);
    }
  }

  lemma InitialZoomReachable(actions: seq<ZoomAction>)
    ensures MinZoom <= ApplyZoom(InitialZoom, actions) <= MaxZoom
  {
    ZoomStaysInBounds(InitialZoom, actions);
  }
}

=== FILE: slider.dfy ===
/**
 The custom slider: the value it emits for a mouse or touch position, and the track's
 gradient style for the value it shows. The slider is the only producer of
 response values, so its output range is the range every response lies in.
 */
module Slider {
  import opened Options

  /** The horizontal extent of the slider track on screen. Bounding
      rectangles never have a negative width. */
  datatype Rect = Rect(left: real, width: real)

  /** What `updateValue` hands to `onChange`. With a zero-width track the
      division gives an infinity (clamped to 0 or 100) or, for a position
      exactly at the left edge, NaN, which is passed on as it is. */
  datatype Emission = Silent | Emit(value: int) | EmitNaN

  /** `Math.round`: the nearest integer, halves rounded up. */
  function RoundHalfUp(x: real): (n: int)
    ensures n as real - 0.5 <= x < n as real + 0.5
  {
    (x + 0.5).Floor
  }

  /** The offset of `clientX` across the track as a percentage, clamped to
      [0, 100]. */
  function Percentage(track: Rect, clientX: real): (p: real)
    requires track.width > 0.0
    ensures 0.0 <= p <= 100.0
    ensures clientX <= track.left ==> p == 0.0
    ensures clientX >= track.left + track.width ==> p == 100.0
    ensures track.left <= clientX <= track.left + track.width ==> track.left + p / 100.0 * track.width == clientX
  {
    var raw := (clientX - track.left) / track.width * 100.0;
    DivAtLeastOne(clientX - track.left, track.width);
    DivScaleInverse(clientX - track.left, track.width);
    if raw > 100.0 then 100.0 else if raw < 0.0 then 0.0 else raw
  }

  /** The value emitted for a mouse or touch at `clientX`; nothing is emitted while
      the track element is absent. */
  function UpdateValue(track: Option<Rect>, clientX: real): (e: Emission)
    requires track.Some? ==> track.value.width >= 0.0
    ensures track.None? <==> e.Silent?
    ensures track.Some? && track.value.width > 0.0 ==>
              e.Emit? && 0 <= e.value <= 100
              && e.value as real - 0.5 <= Percentage(track.value, clientX) < e.value as real + 0.5
    ensures track.Some? && track.value.width > 0.0 && clientX <= track.value.left ==> e == Emit(0)
    ensures track.Some? && track.value.width > 0.0 && clientX >= track.value.left + track.value.width ==> e == Emit(100)
    ensures track.Some? && track.value.width == 0.0 ==>
              e == (if clientX < track.value.left then Emit(0)
                    else if clientX > track.value.left then Emit(100)
                    else EmitNaN)
  {
    match track
    case None => Silent
    case Some(rect) =>
      if rect.width > 0.0 then Emit(RoundHalfUp(Percentage(rect, clientX)))
      else if clientX > rect.left then Emit(100)
      else if clientX < rect.left then Emit(0)
      else EmitNaN
  }

  /** Moving the mouse right never lowers the emitted value. */
  lemma UpdateValueMonotone(track: Rect, x: real, x': real)
    requires track.width > 0.0 && x <= x'
    ensures UpdateValue(Some(track), x).value <= UpdateValue(Some(track), x').value
  {
    var raw := (x - track.left) / track.width * 100.0;
    var raw' := (x' - track.left) / track.width * 100.0;
    assert (x - track.left) / track.width <= (x' - track.left) / track.width by {
      DivMonotone(x - track.left, x' - track.left, track.width);
    }
    assert raw <= raw';
  }

  /** Scaling to a percentage and back returns the offset, and an offset
      within the divisor scales to at most 100. */
  lemma DivScaleInverse(a: real, d: real)
    requires d > 0.0
    ensures a / d * 100.0 / 100.0 * d == a
    ensures a <= d ==> a / d * 100.0 <= 100.0
  {
  }

  lemma DivAtLeastOne(a: real, d: real)
    requires d > 0.0
    ensures a >= d ==> a / d >= 1.0
  {
    if a >= d {
      DivMonotone(d, a, d);
    }
  }

  lemma DivMonotone(a: real, b: real, d: real)
    requires d > 0.0 && a <= b
    ensures a / d <= b / d
  {
    assert (b - a) / d >= 0.0;
    assert b / d - a / d == (b - a) / d;
  }

  /** The track's background: neutral at 50, otherwise a gradient toward the
      side of the value, with an intensity that grows with the distance
      from 50. */
  datatype Gradient = NeutralTrack | TowardLeft(intensity: real) | TowardRight(intensity: real)

  function GradientStyle(value: real): (g: Gradient)
    ensures g.NeutralTrack? <==> value == 50.0
    ensures g.TowardLeft? <==> value < 50.0
    ensures g.TowardRight? <==> value > 50.0
    ensures 0.0 <= value < 50.0 ==> 0.0 < g.intensity <= 1.0
    ensures 50.0 < value <= 100.0 ==> 0.0 < g.intensity <= 1.0
    ensures value == 0.0 || value == 100.0 ==> g.intensity == 1.0
    ensures !g.NeutralTrack? ==> g.intensity * 50.0 == (if value < 50.0 then 50.0 - value else value - 50.0)
  {
    if value == 50.0 then NeutralTrack
    else if value < 50.0 then TowardLeft(1.0 - value / 50.0)
    else TowardRight((value - 50.0) / 50.0)
  }

  /** Values mirrored about 50 get mirrored gradients of equal intensity. */
  lemma GradientMirror(value: real)
    requires value < 50.0
    ensures GradientStyle(100.0 - value) == TowardRight(GradientStyle(value).intensity)
  {
  }

  /** On one side of 50, a value farther from 50 gets a stronger gradient. */
  lemma GradientIntensityMonotone(a: real, b: real)
    ensures a < b < 50.0 ==> GradientStyle(a).intensity > GradientStyle(b).intensity
    ensures 50.0 < a < b ==> GradientStyle(a).intensity < GradientStyle(b).intensity
  {
  }
}

=== FILE: test_flow.dfy ===
/**
 The scored quiz page: answering, the footer's cursor rules, the answered and
 neutral counts of the tooltip, and submission, which completes the response
 set, scores both axes and writes the result record.
 */
module TestFlow {
  import opened Options
  import opened Responses
  import opened Persisted
  import Axis
  import Results
  import Classifier

  /** The record written on submission: the completed response set and the
      scores computed from it. Completion does not change any score, so the
      positions are those of the answers as given; every question index is
      present in the stored responses, answered ones with their own value. */
  function SubmitRecord(r: ResponseMap): (rec: StoredRecord)
    ensures rec.responses == Some(Complete(r))
    ensures rec.position.economicScore == Axis.ComputeAxes(r).economicScore
    ensures rec.position.socialScore == Axis.ComputeAxes(r).socialScore
    ensures rec.position.economic == Axis.Position(rec.position.economicScore)
    ensures rec.position.social == Axis.Position(rec.position.socialScore)
  {
    var completed := Complete(r);
    var a := Axis.ComputeAxes(completed);
    Axis.ComputeAxesAfterComplete(r);
    StoredRecord(UserPosition(a.economic, a.social, a.economicScore, a.socialScore), Some(completed))
  }

  /** With answers in the slider range, the stored scores lie in [0, 100]
      and the stored positions in [-100, 100]. */
  lemma SubmitRecordInRange(r: ResponseMap)
    requires AllInRange(r)
    ensures var p := SubmitRecord(r).position;
            && 0.0 <= p.economicScore <= 100.0 && 0.0 <= p.socialScore <= 100.0
            && -100.0 <= p.economic <= 100.0 && -100.0 <= p.social <= 100.0
  {
    Axis.ComputeAxesInRange(r);
  }

  /** Submitting with nothing answered stores the neutral default position. */
  lemma SubmitNothingAnswered()
    ensures SubmitRecord(map[]).position == DefaultPosition
  {
    Axis.NoAnswersIsNeutral();
  }

  /** The `|| 50` quirk: an answer of 0 is stored as 0, yet the stored
      position is the one a neutral answer would give. */
  lemma SubmitZeroAnswer(r: ResponseMap, q: int)
    requires IsQuestion(q)
    ensures SubmitRecord(r[q := 0.0]).responses.value[q] == 0.0
    ensures SubmitRecord(r[q := 0.0]).position == SubmitRecord(r[q := Neutral]).position
  {
    Axis.ZeroReadsAsNeutral(r, q, Axis.EconomicQuestions);
    Axis.ZeroReadsAsNeutral(r, q, Axis.SocialQuestions);
  }

  /** Reading back a submitted record flags it neutral exactly when every
      answer given was 50. */
  lemma SubmitThenLoadNeutralFlag(slot: Slot, r: ResponseMap)
    ensures Results.LoadResults(Save(slot, SubmitRecord(r))).neutral <==> AllNeutral(r)
  {
    CompleteAllNeutral(r);
  }

  /** A record flagged neutral on reading back is classified "True Neutral". */
  lemma NeutralFlagMeansTrueNeutral(slot: Slot, r: ResponseMap)
    ensures var l := Results.LoadResults(Save(slot, SubmitRecord(r)));
            l.neutral ==> Results.Headline(l) == (Classifier.AuthoritarianRight, Classifier.TrueNeutral)
  {
    SubmitThenLoadNeutralFlag(slot, r);
    if AllNeutral(r) {
      Axis.AllNeutralScoresNeutral(r);
    }
  }

  /** Two economic answers, 40 and 60, that balance out. */
  lemma BalancedAnswersScoreNeutral(r: ResponseMap)
    requires r == map[0 := 40.0, 2 := 60.0]
    ensures Axis.ComputeAxes(r) == Axis.AxisScores(Neutral, Neutral, 0.0, 0.0)
  {
    BalancedEconomicSum(r);
    BalancedSocialScore(r);
  }

  lemma BalancedSocialScore(r: ResponseMap)
    requires r == map[0 := 40.0, 2 := 60.0]
    ensures Axis.Score(r, Axis.SocialQuestions) == Neutral
  {
    forall i | 0 <= i < |Axis.SocialQuestions| ensures ScoredValue(r, Axis.SocialQuestions[i]) == Neutral {
    }
    Axis.ScoreConstant(r, Axis.SocialQuestions, Neutral);
  }

  lemma BalancedEconomicSum(r: ResponseMap)
    requires r == map[0 := 40.0, 2 := 60.0]
    ensures Axis.ScoredSum(r, Axis.EconomicQuestions) == 450.0
  {
    var rest := [9, 11, 12, 15, 21, 23, 26];
    forall i | 0 <= i < |rest| ensures ScoredValue(r, rest[i]) == Neutral {
    }
    Axis.ScoredSumConstant(r, rest, Neutral);
    assert Axis.EconomicQuestions == [0, 2] + rest;
    Axis.ScoredSumAppend(r, [0, 2], rest);
  }

  /** The converse fails: answers that balance out reach the origin and are
      classified "True Neutral" without the neutral flag. */
  lemma BalancedAnswersNotFlagged(slot: Slot)
    ensures var l := Results.LoadResults(Save(slot, SubmitRecord(map[0 := 40.0, 2 := 60.0])));
            && !l.neutral
            && Results.Headline(l).1 == Classifier.TrueNeutral
  {
    var r := map[0 := 40.0, 2 := 60.0];
    assert r[0] != Neutral;
    BalancedAnswersScoreNeutral(r);
    SubmitThenLoadNeutralFlag(slot, r);
  }

  /** Every economic question answered 100 and nothing else: the economic
      position is 100 and the social position 0, which the tree labels
      "Right Authoritarian" by falling through the strong tier. */
  lemma AllEconomicAgree()
    ensures var p := SubmitRecord(map q | q in Axis.EconomicQuestions :: 100.0).position;
            && p.economic == 100.0 && p.social == 0.0
            && Classifier.QuadrantOf(p.economic, p.social) == Classifier.AuthoritarianRight
            && Classifier.IdeologyOf(p.economic, p.social) == Classifier.RightAuthoritarian
  {
    var r := map q | q in Axis.EconomicQuestions :: 100.0;
    forall i | 0 <= i < |Axis.SocialQuestions| ensures Axis.SocialQuestions[i] !in r {
    }
    Axis.ScoreConstant(r, Axis.EconomicQuestions, 100.0);
    Axis.ScoreConstant(r, Axis.SocialQuestions, Neutral);
    var p := SubmitRecord(r).position;
    assert p.economicScore == 100.0 && p.socialScore == Neutral;
  }

  // Footer cursor rules

  /** Target of "Previous": one question back, never before the first. */
  function PreviousTarget(i: int): (j: int)
    ensures i > 0 ==> j == i - 1
    ensures i <= 0 ==> j == 0
    ensures IsQuestion(i) ==> IsQuestion(j) && j <= i && (j == i <==> i == 0)
  {
    if i - 1 > 0 then i - 1 else 0
  }

  predicate PreviousDisabled(i: int) {
    i == 0
  }

  /** "Next" is shown before the last question. */
  predicate NextShown(i: int) {
    i < QuestionCount - 1
  }

  /** "See Results" is shown on the last question only. */
  predicate SubmitShown(i: int) {
    i == QuestionCount - 1
  }

  function NextTarget(i: int): (j: int)
    ensures IsQuestion(i) && NextShown(i) ==> IsQuestion(j) && j == i + 1
  {
    i + 1
  }

  /** On every question exactly one of "Next" and "See Results" is shown. */
  lemma FooterExclusive(i: int)
    requires IsQuestion(i)
    ensures NextShown(i) != SubmitShown(i)
  {
  }

  datatype Click = Previous | Next

  /** The cursor after a series of footer clicks; a click on a disabled or
      absent button does nothing. */
  function Navigate(i: int, clicks: seq<Click>): int
    decreases |clicks|
  {
    if |clicks| == 0 then i
    else
      var i' := match clicks[0]
        case Previous => if PreviousDisabled(i) then i else PreviousTarget(i)
        case Next => if NextShown(i) then NextTarget(i) else i;
      Navigate(i', clicks[1..])
  }

  /** Footer navigation never leaves the question range. */
  lemma {:induction false} NavigateStaysValid(i: int, clicks: seq<Click>)
    requires IsQuestion(i)
    ensures IsQuestion(Navigate(i, clicks))
    decreases |clicks|
  {
    if |clicks| > 0 {
      var i' := match clicks[0]
        case Previous => if PreviousDisabled(i) then i else PreviousTarget(i)
        case Next => if NextShown(i) then NextTarget(i) else i;
      NavigateStaysValid(i', clicks[1..]);
    }
  }

  // Tooltip counts

  /** The tooltip's numbers: answered count and the count to be treated as
      neutral always add up to the question count, and the latter counts the
      questions with no answer. */
  lemma TooltipCounts(r: ResponseMap)
    requires KeysAreQuestions(r)
    ensures AnsweredCount(r) + NeutralCount(r) == QuestionCount
    ensures NeutralCount(r) == |QuestionIndices() - r.Keys|
    ensures NeutralCount(r) > 0 <==> exists q :: IsQuestion(q) && q !in r
  {
    NeutralCountIsUnanswered(r);
    if NeutralCount(r) > 0 {
      var q :| q in QuestionIndices() - r.Keys;
      assert IsQuestion(q) && q !in r;
    } else {
      assert QuestionIndices() - r.Keys == {};
      forall q | IsQuestion(q) ensures q in r {
        assert q in QuestionIndices();
      }
    }
  }
}
